=== FILE: README.md ===
# git-open core in Dafny

This project models the core of the vscode-git-open extension. The extension
opens a repository's hosting-provider pages (home page, merge requests,
create-merge-request, CI pipelines) from VS Code. The model covers four parts:

- **`UrlBuilder`** (`url_builder.dfy`) builds the four page URLs from a
  remote's provider, base URL, owner and repository name. A provider with
  no templates gets the "Unsupported Git provider" error.
- **`RepoSelection`** (`repo_selection.dfy`) is the per-workspace history
  of selected repositories in a multi-repository workspace. It covers
  recording a selection, scoring, sorting and truncating to five; reading
  the last selection and the suggestions; clearing; and the cleanup of
  expired entries.
  - The history is a `map` from workspace path to a `seq` of records.
  - The clock reading `Date.now()` is a `now` parameter.
  - `StableSort` (`stable_sort.dfy`) holds the stable ascending sort that
    `Array.prototype.sort` performs with a numeric comparator.
- **`GitHelper`** (`git_helper.dfy`) is the repository check and the
  remote-URL read.
  - The two git child processes are not run: each is an `ExecOutcome`
    input, either the output the process printed or the value it rejected
    with.
  - The module also holds the cleaning of the remote URL: trim, drop one
    ".git", and rewrite an SSH address `git@host:path` to
    `https://host/path`.
- **`BaseCommand`** (`base_command.dfy`) has the two helpers every command
  inherits: the choice of workspace folder, and the text of the error
  notification.

Two more modules support them:

- `Text` (`text.dfy`) holds the string operations `GitHelper` borrows from
  JavaScript: `trim`, `startsWith`, `includes` and `replace(string, string)`.
  It also holds the suffix test that `replace(/\.git$/, '')` performs.
- `Results` (`results.dfy`) holds `Option` and `Result`. A thrown error is
  an `Err` value.

Two modelling choices apply throughout:

- **Integer weight instead of a float score.** `RepoSelectionCache`'s score is
  `count * (1 + (now - timestamp) / TTL)`. The model uses the integer
  weight `count * (TTL + now - timestamp)`, which is the exact score
  multiplied by the positive constant TTL. So both order records the same
  way (`Weight`, `WeightOrderIsScoreOrder`).
- **The code's sort order, not the test's.** The comparator returns
  `scoreA - scoreB`, so lists are sorted ascending. The record with the
  lowest score comes first: it is what `getLastSelected` returns, and it
  is kept when the list is cut to five. The test at
  `src/test/suite/repoSelectionCache.test.ts:154-166` expects the more
  frequently chosen repository first. The code puts it last, and the model
  follows the code: `FrequentPathListedLast` proves the code's order for
  that test's scenario.

## Model

| member | source | states |
|---|---|---|
| UrlBuilder.UnsupportedProviderError.Message | src/urlBuilder.ts:84-89 | The unsupported-provider message opens with "Unsupported Git provider" and contains the base URL that could not be matched |
| UrlBuilder.ParseProvider | src/urlBuilder.ts:21-33 | The `switch (provider)` dispatch: a provider string selects a template case exactly when it is one of github, gitlab, bitbucket, azure; the tag is preserved |
| UrlBuilder.ProviderTagRoundTrip | src/urlBuilder.ts:21-33 | Dispatching on a provider's own tag gives that provider back |
| UrlBuilder.RepoUrl | src/urlBuilder.ts:12-15 | The home page is the base URL, '/', the owner verbatim, '/', and the repository name: prefix, owner slice, suffix and length are each stated |
| UrlBuilder.RepoUrlRoundTrip | src/urlBuilder.ts:12-15 | The home page `${baseUrl}/${owner}/${repo}` inserts owner and repository verbatim (a nested owner "group/sub" included), so they can be read back from it whenever the repository name has no '/' |
| UrlBuilder.LastSlashBeforeRepo | src/urlBuilder.ts:12-15 | In `owner/repo` the last '/' is the separator, so a nested owner stays whole |
| UrlBuilder.MergeRequestsUrl | src/urlBuilder.ts:20-35 | Fails exactly for a provider outside the four, with the unsupported-provider error naming the base URL; otherwise the page lies under the repository home page |
| UrlBuilder.CreateMergeRequestUrl | src/urlBuilder.ts:40-59 | The same failure condition and error; every successful URL lies under the repository home page |
| UrlBuilder.PipelinesUrl | src/urlBuilder.ts:64-79 | The same failure condition and error; every successful URL lies under the repository home page and differs from the merge-request list page |
| UrlBuilder.ProviderTemplates | src/urlBuilder.ts:24-31 | The exact page for each provider and action as the home page plus a fixed path; branch names are inserted verbatim, and only GitHub puts the target branch before the source branch (also lines 48-55 and 68-75) |
| UrlBuilder.PagesIdentifyProvider | src/urlBuilder.ts:40-59 | Two different supported providers never yield the same page for the same repository and branches |
| UrlBuilder.BuildersDispatchOnTag | src/urlBuilder.ts:23-33 | For the provider string itself: each of the three builders fails exactly when the string is not github, gitlab, bitbucket or azure |
| RepoSelection.WeightOrderIsScoreOrder | src/repoSelectionCache.ts:51-55 | The integer weight orders two records exactly as the comparator's score `count * (1 + (now - timestamp) / TTL)` does |
| RepoSelection.Weight | src/repoSelectionCache.ts:52-53 | The integer weight is the exact score `count * (1 + (now - timestamp) / TTL)` times the TTL constant (7 days in milliseconds) |
| RepoSelection.SortByScore | src/repoSelectionCache.ts:51-55 | The `sort` with comparator `scoreA - scoreB` returns a permutation of the list in ascending score order (stability: `StableSort.SortIsStable`) |
| RepoSelection.FindPath | src/repoSelectionCache.ts:35 | `findIndex`: the first index holding the path, or none when no record has it |
| RepoSelection.Upsert | src/repoSelectionCache.ts:35-48 | The record `findIndex` finds becomes `{path, now, count + 1}` in place; without one, `{path, now, 1}` is appended; every other index is left untouched, including a later record carrying the same path |
| RepoSelection.Take | src/repoSelectionCache.ts:58 | `slice(0, n)`: a prefix of the list of exactly min(length, n) records |
| RepoSelection.RecordInList | src/repoSelectionCache.ts:34-58 | After recording, a workspace list has at most five records and is in ascending score order |
| RepoSelection.RecordSelection | src/repoSelectionCache.ts:27-61 | Recording creates the workspace entry if missing and stores there the updated, sorted, truncated list (`RecordInList` of the old list); every other workspace is unchanged |
| RepoSelection.RecordInListKeepsLowestScores | src/repoSelectionCache.ts:51-58 | The kept records are min(size, 5) of the updated list, taken from it, none scoring above any evicted record; nothing is evicted while the list fits |
| RepoSelection.RecordInListKeepsAllThatFit | src/repoSelectionCache.ts:51-58 | When the updated list has at most five records, the sort and slice keep every one of them |
| RepoSelection.RecordInListIsPrefix | src/repoSelectionCache.ts:51-58 | Bridge lemma: the stored list is the first five of the score-sorted updated list, which lets the properties of `StableSort.Sort` carry over |
| RepoSelection.UpsertKeepsInvariant | src/repoSelectionCache.ts:35-48 | Updating in place or appending keeps paths distinct and every count at least 1 |
| RepoSelection.RecordInListPreservesWellFormed | src/repoSelectionCache.ts:34-58 | Recording keeps a list well formed (distinct paths, counts at least 1, at most five records) and in ascending score order |
| RepoSelection.RecordSelectionPreservesWellFormed | src/repoSelectionCache.ts:27-61 | Recording keeps every workspace list of the history well formed |
| RepoSelection.SamePathSameIndex | src/repoSelectionCache.ts:35 | Bridge lemma: in a list with distinct paths, two indices holding the same path are equal |
| RepoSelection.RecordExistingPath | src/repoSelectionCache.ts:37-41 | Re-selecting a stored path replaces its record by one with count + 1 and timestamp now, and adds or drops nothing |
| RepoSelection.RecordNewPath | src/repoSelectionCache.ts:42-48 | A new path enters as `{path, now, 1}`; the list grows by one below five and stays at five otherwise, and nothing is lost while there is room |
| RepoSelection.LiveRecords | src/repoSelectionCache.ts:97-98 | The TTL filter keeps exactly the records at most 7 days old |
| RepoSelection.LiveUntilTtlElapses | src/repoSelectionCache.ts:76 | A record is live up to and including the instant TTL after its timestamp and expired one millisecond later (the `> TTL` test at line 76 and the `<= TTL` filters at lines 98 and 146 agree); once expired it stays expired |
| RepoSelection.LiveRecordsAppend | src/repoSelectionCache.ts:145-147 | Filtering distributes over concatenation, so survivors keep their relative order |
| RepoSelection.LiveRecordsFull | src/repoSelectionCache.ts:149-154 | A filter that keeps the length keeps the list, so an unchanged length means an unchanged list |
| RepoSelection.LiveRecordsAllLive | src/repoSelectionCache.ts:145-147 | A list without expired records passes the filter unchanged |
| RepoSelection.LiveRecordsIdempotent | src/repoSelectionCache.ts:145-147 | Filtering twice at the same time filters once |
| RepoSelection.LiveRecordsKeepsPathsDistinct | src/repoSelectionCache.ts:145-147 | Dropping expired records keeps the paths distinct |
| RepoSelection.Paths | src/repoSelectionCache.ts:99 | `map(r => r.repoPath)`: one path per record, in place |
| RepoSelection.PathsMembership | src/repoSelectionCache.ts:99 | A path is listed exactly when some record holds it |
| RepoSelection.GetLastSelected | src/repoSelectionCache.ts:66-81 | A path is returned exactly when the workspace has records and the first one has not expired; it is that record's path |
| RepoSelection.GetSuggestions | src/repoSelectionCache.ts:87-100 | Lists exactly the paths of the workspace's unexpired records, never more than it stores; empty for an unknown workspace |
| RepoSelection.SuggestionsAreLiveRecordsInOrder | src/repoSelectionCache.ts:96-99 | Bridge lemma: the suggestions are the paths of `LiveRecords` of the stored list, so their order is the stored order (`LiveRecordsAppend`) |
| RepoSelection.LastSelectedHeadsSuggestions | src/repoSelectionCache.ts:66-100 | Whenever a last selection is reported it is the first suggestion |
| RepoSelection.ClearWorkspace | src/repoSelectionCache.ts:105-109 | Removes that workspace's entry and keeps every other workspace's list |
| RepoSelection.ClearWorkspaceForgetsOnlyIt | src/repoSelectionCache.ts:105-109 | After clearing, the workspace has no suggestions or last selection, and every other workspace answers as before |
| RepoSelection.ClearWorkspacePreservesWellFormed | src/repoSelectionCache.ts:105-109 | Clearing keeps the history well formed |
| RepoSelection.ClearAll | src/repoSelectionCache.ts:114-116 | The stored history is empty (`{}`), so no workspace has suggestions or a last selection at any time |
| RepoSelection.Pruned | src/repoSelectionCache.ts:143-155 | Each kept workspace holds exactly its own unexpired records, in their stored order; a workspace is kept exactly when one of its records is unexpired |
| RepoSelection.PrunedChangesIffSomeShrinks | src/repoSelectionCache.ts:149-154 | The history changes exactly when some workspace loses a record or is deleted, the condition that sets `modified` |
| RepoSelection.Cleanup | src/repoSelectionCache.ts:138-160 | The loop (filter each workspace, delete emptied ones, note any shrink) yields the pruned history, and it saves exactly when that differs from what was stored |
| RepoSelection.CleanupIdempotent | src/repoSelectionCache.ts:138-160 | A second cleanup at the same time changes nothing |
| RepoSelection.CleanupPreservesWellFormed | src/repoSelectionCache.ts:138-160 | Cleanup keeps the history well formed |
| RepoSelection.FrequentPathListedLast | src/repoSelectionCache.ts:51-55 | Choosing p three times, then q once, lists [q, p] and reports q as last selected: the more frequent path sorts last |
| RepoSelection.FrequentListOrder | src/repoSelectionCache.ts:27-58 | The recorded list after those four selections is `[{q, t4, 1}, {p, t3, 3}]` |
| RepoSelection.ReadTwoLiveRecords | src/repoSelectionCache.ts:66-100 | For two unexpired records, the suggestions are both paths in stored order and the last selection is the first |
| RepoSelection.RecordIntoEmpty | src/repoSelectionCache.ts:30-48 | The first selection in a workspace stores `{path, now, 1}` |
| RepoSelection.RecordSameIntoSingleton | src/repoSelectionCache.ts:37-41 | Re-selecting the only stored path bumps its count and refreshes its timestamp |
| RepoSelection.RecordLighterIntoSingleton | src/repoSelectionCache.ts:42-58 | A new path that scores below the stored record is placed before it |
| StableSort.Sort | src/repoSelectionCache.ts:51-55 | The sort returns a permutation of its input in ascending key order |
| StableSort.SortIsStable | src/repoSelectionCache.ts:51-55 | Records with equal score keep their relative order, as the stable `Array.prototype.sort` does |
| StableSort.SortKeepsDistinct | src/repoSelectionCache.ts:51-55 | Sorting cannot make two records share a path |
| StableSort.PrefixHoldsSmallest | src/repoSelectionCache.ts:58 | The first n of a sorted list score no more than any of the rest |
| Text.Trim | src/gitHelper.ts:57 | `trim()`: the result is the input without its leading and trailing whitespace, and starts and ends with non-whitespace |
| Text.TrimOfPadded | src/gitHelper.ts:62 | Trimming whitespace-padded text returns the text exactly |
| Text.TrimEmptyIffBlank | src/gitHelper.ts:57 | `remoteUrl.trim()` is empty exactly when the output is all whitespace |
| Text.IndexOf | src/gitHelper.ts:66-68 | The first occurrence of a pattern, or none |
| Text.ReplaceFirst | src/gitHelper.ts:66-68 | `replace` with a string pattern returns the input unchanged when the pattern does not occur, and otherwise replaces one occurrence, changing the length by |rep| - |pat| (which occurrence: `ReplaceFirstAt`) |
| Text.ContainsIffIndexOf | src/gitHelper.ts:29 | `includes` holds exactly when the pattern has a first occurrence |
| Text.ReplaceFirstAt | src/gitHelper.ts:66-68 | `replace(string, string)` swaps only the first occurrence of the pattern |
| GitHelper.MessageOf | src/gitHelper.ts:29 | A thrown value has a message exactly when it is an `Error`; for a `GitError` or any other `Error` that message is the error's own `message` field |
| GitHelper.DescribeThrown | src/gitHelper.ts:32 | The text interpolated into a wrapping error is the thrown `Error`'s message, or "Unknown error" for a value that is not an `Error` (also line 77) |
| GitHelper.IsGitRepository | src/gitHelper.ts:20-34 | An empty path gives "Path is required"; true exactly when rev-parse completes; false exactly when it fails saying "not a git repository"; any other failure becomes the `GitError` "Failed to check Git repository status: " + the thrown message (or "Unknown error") with command "git rev-parse" |
| GitHelper.RevParseMessageDecides | src/gitHelper.ts:28-32 | The rejection's own message decides: one containing "not a git repository" (on a plain `Error` or a `GitError`) gives false, any other is wrapped verbatim after "Failed to check Git repository status: " |
| GitHelper.StripGitSuffix | src/gitHelper.ts:62 | `replace(/\.git$/, '')` removes one trailing ".git" when present and changes nothing otherwise |
| GitHelper.StripGitSuffixOfAppended | src/gitHelper.ts:62 | Removing the suffix undoes appending it |
| GitHelper.CleanRemoteUrl | src/gitHelper.ts:62-69 | A cleaned SSH remote (after trim and suffix removal) always starts with "https://" |
| GitHelper.SshToHttps | src/gitHelper.ts:66-68 | The `.replace(':', '/').replace('git@', 'https://')` chain turns any address starting with "git@" into one starting with "https://" (exact rewrite: `SshAddressRewrite`) |
| GitHelper.SshPrefixBecomesHttps | src/gitHelper.ts:65-69 | Whatever follows "git@", the two replacements yield an "https://" address |
| GitHelper.SshAddressRewrite | src/gitHelper.ts:66-68 | `git@host:path` becomes `https://host/path`, with only the first ':' rewritten |
| GitHelper.CleanIgnoresPadding | src/gitHelper.ts:62 | Whitespace around the remote makes no difference to the cleaned URL |
| GitHelper.CleanDependsOnlyOnTrim | src/gitHelper.ts:62 | Only the trimmed text reaches the suffix removal and rewrite |
| GitHelper.CleanSshRemote | src/gitHelper.ts:62-69 | A padded "git@host:path.git" cleans to "https://host/path" |
| GitHelper.CleanSshAddress | src/gitHelper.ts:62-69 | "git@host:path.git" cleans to "https://host/path" |
| GitHelper.CleanTrimmedSshRemote | src/gitHelper.ts:62-69 | An SSH address with ".git" cleans to its HTTPS rewrite |
| GitHelper.CleanUnfold | src/gitHelper.ts:62-71 | Bridge lemma: once trimmed and stripped, an address is rewritten when it starts with "git@" and returned as it is otherwise |
| GitHelper.CleanHttpsRemote | src/gitHelper.ts:62-71 | A non-SSH remote (https://, ssh://git@…) comes back trimmed and without one ".git", otherwise verbatim |
| GitHelper.CleanTrimmedHttpsRemote | src/gitHelper.ts:62-71 | A non-SSH address with ".git" cleans to the address |
| GitHelper.CleanStripsOnlyOneSuffix | src/gitHelper.ts:62 | Of "x.git.git" one ".git" goes; cleaning is not idempotent |
| GitHelper.NoSshPrefixAfterAppend | src/gitHelper.ts:65 | Appending ".git" to a non-SSH address cannot make it look like one |
| GitHelper.GetRemoteUrl | src/gitHelper.ts:42-81 | Succeeds exactly when the path is non-empty, both git calls complete and the output is not blank; the result is the cleaned output |
| GitHelper.RemoteUrlErrors | src/gitHelper.ts:43-59 | The error for each failure: "Path is required", "Not a Git repository", the wrapped rev-parse failure, a `GitError` passed on unchanged, the config failure wrapped with command "git config" (lines 72-80), "No remote URL found" |
| GitHelper.RepositoryCheckPrecedesRemoteRead | src/gitHelper.ts:49-55 | Once rev-parse has failed the config read cannot affect the outcome, which is an error |
| BaseCommand.WorkspacePath | src/commands/baseCommand.ts:22-28 | The first workspace folder's path, and "No workspace folder found" exactly when there is no folder list or it is empty |
| BaseCommand.WorkspacePathIgnoresLaterFolders | src/commands/baseCommand.ts:27 | Folders after the first never change the chosen path |
| BaseCommand.HandleErrorMessage | src/commands/baseCommand.ts:34-47 | A `GitError` shows "Git error: " and its message, followed directly by " (command)" exactly when a non-empty command is named (prefix, suffix and length fix the text); another `Error` shows its message; anything else shows "An unexpected error occurred" |
| BaseCommand.GitMessageReadBack | src/commands/baseCommand.ts:37-41 | The git error's message can be read back from the notification |
| BaseCommand.GitNotificationsDistinguishMessages | src/commands/baseCommand.ts:37-41 | Two command-less git errors give the same notification exactly when their messages agree |
| BaseCommand.MissingWorkspaceNotification | src/commands/baseCommand.ts:22-28 | Without a workspace folder the notification reads "No workspace folder found" |
| BaseCommand.RevParseFailureNotification | src/commands/baseCommand.ts:37-41 | A failed rev-parse is shown as "Git error: Failed to check Git repository status: <reason> (git rev-parse)" |
| BaseCommand.NotARepositoryNotification | src/commands/baseCommand.ts:37-41 | A directory outside a repository is shown as "Git error: Not a Git repository" without a command |
| BaseCommand.UnsupportedProviderNotification | src/commands/baseCommand.ts:42-43 | The unsupported-provider error is shown whole, naming the base URL |

## Left out

- VS Code plumbing is not modelled: `vscode.window`, `globalState` persistence (the `STORAGE_KEY` read and write), command registration and the notification call itself. The history is passed in and returned, and "saves" is the `saved` result of `Cleanup`.
- `showUnsupportedProviderError` (src/urlBuilder.ts:94-127) is user-interface code: dialog buttons, opening settings, and a URL parse of the base URL.
- Running git: the child processes `git rev-parse` and `git config` are inputs (`ExecOutcome`), not executed. In `GitHelper`, `execAsync` only ever rejects with plain `Error` values; the model also allows other thrown values.
- `getRemoteInfo`, provider-domain matching, `getCurrentBranch`/`getDefaultBranch` and the command subclasses are not part of this model. So `RemoteInfo` and the branch names are inputs.
- RepoSelection.RecordInList: `Date.now()` is read anew in every comparator call and in every method. The model uses one `now` per operation, so the order is the one for a single instant.
- RepoSelection.WeightOrderIsScoreOrder: floating-point rounding of the score is not modelled. The integer weight gives the exact order, which rounding could blur only for scores that differ in the last bits.
- Text.Trim: only ASCII space, tab, line feed and carriage return count as whitespace. JavaScript's `trim` also removes other Unicode spaces and line terminators.
- RepoSelection.GetSuggestions: its contract states which paths are listed. Their order is stated separately by `SuggestionsAreLiveRecordsInOrder`.
- Timestamps and counts are unbounded integers. JavaScript numbers are doubles, so a count past 2^53 is not modelled.
- The test `src/test/suite/repoSelectionCache.test.ts:154-166` expects the more frequently chosen repository first. The code sorts ascending and puts it last; the model follows the code (`FrequentPathListedLast`).

=== FILE: base_command.dfy ===
/** The two helpers every command inherits: choosing the workspace folder to
    work in, and turning a failure into the text of the error notification. */
module BaseCommand {
  import opened Results
  import opened Text
  import opened GitHelper
  import UrlBuilder

  const NoWorkspaceFolder: string := "No workspace folder found"
  const UnexpectedError: string := "An unexpected error occurred"
  const GitErrorPrefix: string := "Git error: "

  /** `getWorkspacePath`: `folders` holds the file-system paths of the open
      workspace folders, `None` when no folder list exists. The first folder
      is used; without one a plain `Error` is raised. */
  function WorkspacePath(folders: Option<seq<string>>): (r: Result<string, Thrown>)
    ensures r.Ok? <==> folders.Some? && |folders.value| > 0
    ensures r.Ok? ==> r.value == folders.value[0]
    ensures r.Err? ==> r.error == PlainError(NoWorkspaceFolder)
  {
    match folders
    case None => Err(PlainError(NoWorkspaceFolder))
    case Some(fs) =>
      if |fs| == 0 then Err(PlainError(NoWorkspaceFolder)) else Ok(fs[0])
  }

  /** Only the first folder matters: opening more folders after it never
      changes the path a command works in. */
  lemma WorkspacePathIgnoresLaterFolders(first: string, rest: seq<string>, more: seq<string>)
    ensures WorkspacePath(Some([first] + rest)) == WorkspacePath(Some([first] + rest + more))
    ensures WorkspacePath(Some([first] + rest)) == Ok(first)
  {
  }

  /** The command suffix is shown only when the error names a non-empty
      command (an empty string is falsy). */
  predicate NamesCommand(g: GitError) {
    g.command.Some? && g.command.value != ""
  }

  /** `handleError`: the text shown in the error notification. */
  function HandleErrorMessage(e: Thrown): (r: string)
    ensures e.GitFailure? ==> StartsWith(r, GitErrorPrefix + e.git.message)
    ensures e.GitFailure? && NamesCommand(e.git) ==> EndsWith(r, " (" + e.git.command.value + ")")
    ensures e.GitFailure? && NamesCommand(e.git) ==>
              |r| == |GitErrorPrefix| + |e.git.message| + |e.git.command.value| + 3
    ensures e.GitFailure? && !NamesCommand(e.git) ==> |r| == |GitErrorPrefix| + |e.git.message|
    ensures e.PlainError? ==> r == e.message
    ensures e.NonError? ==> r == UnexpectedError
  {
    match e
    case GitFailure(g) =>
      var head := GitErrorPrefix + g.message;
      StartsWithConcat(head, if NamesCommand(g) then " (" + g.command.value + ")" else "");
      if NamesCommand(g) then
        var tail := " (" + g.command.value + ")";
        assert (head + tail)[|head|..] == tail;
        head + tail
      else head
    case PlainError(m) => m
    case NonError => UnexpectedError
  }

  /** The git error's own message can be read back from the notification. */
  lemma GitMessageReadBack(g: GitError)
    ensures var shown := HandleErrorMessage(GitFailure(g));
            |GitErrorPrefix| + |g.message| <= |shown|
            && shown[|GitErrorPrefix|..|GitErrorPrefix| + |g.message|] == g.message
  {
    var shown := HandleErrorMessage(GitFailure(g));
    var head := GitErrorPrefix + g.message;
    assert shown[..|head|] == head;
    assert head[|GitErrorPrefix|..] == g.message;
  }

  /** Two git errors without a command produce the same notification only
      when their messages agree. */
  lemma GitNotificationsDistinguishMessages(g1: GitError, g2: GitError)
    requires !NamesCommand(g1) && !NamesCommand(g2)
    ensures HandleErrorMessage(GitFailure(g1)) == HandleErrorMessage(GitFailure(g2)) <==> g1.message == g2.message
  {
    if HandleErrorMessage(GitFailure(g1)) == HandleErrorMessage(GitFailure(g2)) {
      GitMessageReadBack(g1);
      GitMessageReadBack(g2);
    }
  }

  /** With no folder open the notification reads "No workspace folder found". */
  lemma MissingWorkspaceNotification(folders: Option<seq<string>>)
    requires folders.None? || folders.value == []
    ensures WorkspacePath(folders).Err?
    ensures HandleErrorMessage(WorkspacePath(folders).error) == NoWorkspaceFolder
  {
  }

  /** A failed `git rev-parse` reaches the user as
      "Git error: Failed to check Git repository status: <reason> (git rev-parse)". */
  lemma RevParseFailureNotification(path: string, reason: Thrown, configGet: ExecOutcome)
    requires path != "" && !SaysNotARepository(reason)
    ensures var r := GetRemoteUrl(path, Rejected(reason), configGet);
            r.Err?
            && HandleErrorMessage(GitFailure(r.error))
               == GitErrorPrefix + ("Failed to check Git repository status: " + DescribeThrown(reason))
                  + " (" + RevParseCommand + ")"
  {
    RemoteUrlErrors(path, Rejected(reason), configGet);
  }

  /** A directory outside any repository reaches the user as
      "Git error: Not a Git repository", with no command appended. */
  lemma NotARepositoryNotification(path: string, reason: Thrown, configGet: ExecOutcome)
    requires path != "" && SaysNotARepository(reason)
    ensures var r := GetRemoteUrl(path, Rejected(reason), configGet);
            r.Err? && HandleErrorMessage(GitFailure(r.error)) == GitErrorPrefix + NotARepository
  {
    RemoteUrlErrors(path, Rejected(reason), configGet);
  }

  /** The unsupported-provider error is a plain `Error`: its whole message is
      shown, including the base URL that could not be matched. */
  lemma UnsupportedProviderNotification(baseUrl: string)
    ensures var shown := HandleErrorMessage(PlainError(UrlBuilder.UnsupportedProvider(baseUrl).Message()));
            StartsWith(shown, UrlBuilder.UnsupportedLead) && Contains(shown, baseUrl)
  {
  }
}

=== FILE: git_helper.dfy ===
/** Reading a repository's remote URL through git and normalising it to an
    HTTPS address. The two git invocations are not run: each is an input
    holding what the child process produced (its standard output, or the
    value it rejected with). */
module GitHelper {
  import opened Results
  import opened Text

  /** `GitError`: a message and, optionally, the git command that failed. */
  datatype GitError = GitError(message: string, command: Option<string>)

  /** A thrown value as a `catch` block sees it: a `GitError`, any other
      `Error` (only its message matters), or something that is not an
      `Error` at all. */
  datatype Thrown = GitFailure(git: GitError) | PlainError(message: string) | NonError

  /** How a child-process call ended. */
  datatype ExecOutcome = Completed(stdout: string) | Rejected(reason: Thrown)

  /** `error instanceof Error ? error.message : …`: the message of an `Error`
      (a `GitError` is one too), none for anything else. */
  function MessageOf(t: Thrown): (r: Option<string>)
    ensures r.None? <==> t.NonError?
    ensures t.GitFailure? ==> r == Some(t.git.message)
    ensures t.PlainError? ==> r == Some(t.message)
  {
    match t
    case GitFailure(g) => Some(g.message)
    case PlainError(m) => Some(m)
    case NonError => None
  }

  /** The message interpolated into a wrapping error: the thrown `Error`'s
      message, or "Unknown error". */
  function DescribeThrown(t: Thrown): (r: string)
    ensures t.NonError? ==> r == "Unknown error"
    ensures !t.NonError? ==> MessageOf(t) == Some(r)
    ensures t.GitFailure? ==> r == t.git.message
    ensures t.PlainError? ==> r == t.message
  {
    match MessageOf(t)
    case Some(m) => m
    case None => "Unknown error"
  }

  const PathRequired: string := "Path is required"
  const NotARepository: string := "Not a Git repository"
  const NoRemoteUrl: string := "No remote URL found"
  const RevParseCommand: string := "git rev-parse"
  const ConfigCommand: string := "git config"

  /** The fragment of git's own message that means "not inside a repository". */
  const NotARepositoryMarker: string := "not a git repository"

  /** The rejection is git reporting that the directory is not inside a
      repository. */
  predicate SaysNotARepository(t: Thrown) {
    MessageOf(t).Some? && Contains(MessageOf(t).value, NotARepositoryMarker)
  }

  /** `isGitRepository`: `revParse` is the outcome of
      `git rev-parse --is-inside-work-tree` run in `path`. */
  function IsGitRepository(path: string, revParse: ExecOutcome): (r: Result<bool, GitError>)
    ensures path == "" ==> r == Err(GitError(PathRequired, None))
    ensures path != "" ==> (r == Ok(true) <==> revParse.Completed?)
    ensures path != "" ==>
              (r == Ok(false) <==> revParse.Rejected? && SaysNotARepository(revParse.reason))
    ensures path != "" && r.Err? ==>
              r.error.command == Some(RevParseCommand)
              && StartsWith(r.error.message, "Failed to check Git repository status: ")
    ensures path != "" && revParse.Rejected? && !SaysNotARepository(revParse.reason) ==>
              r == Err(GitError("Failed to check Git repository status: " + DescribeThrown(revParse.reason),
                                Some(RevParseCommand)))
  {
    if path == "" then Err(GitError(PathRequired, None))
    else match revParse
      case Completed(_) => Ok(true)
      case Rejected(t) =>
        if SaysNotARepository(t) then Ok(false)
        else
          var prefix := "Failed to check Git repository status: ";
          StartsWithConcat(prefix, DescribeThrown(t));
          Err(GitError(prefix + DescribeThrown(t), Some(RevParseCommand)))
  }

  /** `replace(/\.git$/, '')`: drops one trailing ".git". */
  function StripGitSuffix(s: string): (r: string)
    ensures EndsWith(s, ".git") ==> r + ".git" == s
    ensures !EndsWith(s, ".git") ==> r == s
  {
    if EndsWith(s, ".git") then s[..|s| - 4] else s
  }

  /** The repository check reads git's rejection message itself: a message
      mentioning "not a git repository", whether on a plain `Error` or on a
      `GitError`, answers "no"; any other message is wrapped verbatim. */
  lemma RevParseMessageDecides(path: string, m: string, command: Option<string>)
    requires path != ""
    ensures Contains(m, NotARepositoryMarker) ==>
              IsGitRepository(path, Rejected(PlainError(m))) == Ok(false)
              && IsGitRepository(path, Rejected(GitFailure(GitError(m, command)))) == Ok(false)
    ensures !Contains(m, NotARepositoryMarker) ==>
              IsGitRepository(path, Rejected(PlainError(m)))
              == Err(GitError("Failed to check Git repository status: " + m, Some(RevParseCommand)))
  {
  }

  /** Removing the suffix undoes appending it, and only one copy goes. */
  lemma StripGitSuffixOfAppended(s: string)
    ensures StripGitSuffix(s + ".git") == s
  {
    assert (s + ".git")[|s|..] == ".git";
  }

  /** The SSH-to-HTTPS rewrite for a URL starting with "git@": the first ':'
      becomes '/', then the first "git@" becomes "https://". */
  function SshToHttps(s: string): (r: string)
    ensures StartsWith(s, "git@") ==> StartsWith(r, "https://")
  {
    var r := ReplaceFirst(ReplaceFirst(s, ":", "/"), "git@", "https://");
    if StartsWith(s, "git@") then SshPrefixBecomesHttps(s); r else r
  }

  /** The cleaning `getRemoteUrl` applies to git's output: trim, drop one
      ".git", and rewrite an SSH address. */
  function CleanRemoteUrl(raw: string): (r: string)
    ensures StartsWith(StripGitSuffix(Trim(raw)), "git@") ==> StartsWith(r, "https://")
  {
    var clean := StripGitSuffix(Trim(raw));
    if StartsWith(clean, "git@") then SshToHttps(clean)
    else clean
  }

  /** Whatever follows "git@", the rewrite produces an "https://" address. */
  lemma SshPrefixBecomesHttps(s: string)
    requires StartsWith(s, "git@")
    ensures StartsWith(ReplaceFirst(ReplaceFirst(s, ":", "/"), "git@", "https://"), "https://")
  {
    var t := ReplaceFirst(s, ":", "/");
    assert t[..4] == "git@" by {
      match IndexOf(s, ":")
      case None =>
      case Some(i) =>
        forall k | 0 <= k < 4 ensures !OccursAt(s, ":", k) {
          assert s[k..k + 1] == [s[..4][k]];
        }
        assert t[..4] == s[..i][..4];
    }
    ReplaceFirstAt([], "git@", t[4..], "https://");
    assert [] + "git@" + t[4..] == t;
    assert ReplaceFirst(t, "git@", "https://") == [] + "https://" + t[4..];
    assert ("https://" + t[4..])[..8] == "https://";
  }

  /** An SSH address `git@host:path` becomes `https://host/path`. Only the
      first ':' is rewritten, so `path` may contain more of them. */
  lemma SshAddressRewrite(host: string, path: string)
    requires ':' !in host
    ensures SshToHttps("git@" + host + ":" + path) == "https://" + host + "/" + path
  {
    var user := "git@" + host;
    assert ':' !in user by {
      assert forall k :: 0 <= k < |user| ==> user[k] == if k < 4 then "git@"[k] else host[k - 4];
    }
    assert "git@" + host + ":" + path == user + [':'] + path;
    ReplaceFirstChar(user, ':', path, "/");
    var t := user + "/" + path;
    assert t == [] + "git@" + (host + "/" + path);
    ReplaceFirstAt([], "git@", host + "/" + path, "https://");
    assert [] + "https://" + (host + "/" + path) == "https://" + host + "/" + path;
  }

  /** Surrounding whitespace makes no difference to the cleaned URL. */
  lemma CleanIgnoresPadding(lead: string, core: string, trail: string)
    requires AllWhitespace(lead) && AllWhitespace(trail)
    requires core != [] && !IsWhitespace(core[0]) && !IsWhitespace(core[|core| - 1])
    ensures Trim(core) == core
    ensures CleanRemoteUrl(lead + core + trail) == CleanRemoteUrl(core)
  {
    TrimOfPadded(lead, core, trail);
    TrimOfPadded([], core, []);
    assert [] + core + [] == core;
    CleanDependsOnlyOnTrim(lead + core + trail, core);
  }

  /** Only the trimmed text reaches the rest of the cleaning. */
  lemma CleanDependsOnlyOnTrim(a: string, b: string)
    requires Trim(a) == Trim(b)
    ensures CleanRemoteUrl(a) == CleanRemoteUrl(b)
  {
  }

  /** A typical SSH remote, "git@host:path.git" with surrounding whitespace,
      cleans to "https://host/path". */
  lemma CleanSshRemote(lead: string, host: string, path: string, trail: string)
    requires AllWhitespace(lead) && AllWhitespace(trail)
    requires ':' !in host
    ensures CleanRemoteUrl(lead + ("git@" + host + ":" + path + ".git") + trail)
            == "https://" + host + "/" + path
  {
    var address := "git@" + host + ":" + path;
    var core := address + ".git";
    assert core[0] == 'g' && core[|core| - 1] == 't';
    CleanIgnoresPadding(lead, core, trail);
    CleanSshAddress(host, path);
  }

  lemma CleanSshAddress(host: string, path: string)
    requires ':' !in host
    ensures CleanRemoteUrl("git@" + host + ":" + path + ".git") == "https://" + host + "/" + path
  {
    var address := "git@" + host + ":" + path;
    assert StartsWith(address, "git@") by {
      assert address[..4] == "git@";
    }
    CleanTrimmedSshRemote(address);
    SshAddressRewrite(host, path);
  }

  /** An SSH address with the ".git" suffix cleans to its rewrite. */
  lemma CleanTrimmedSshRemote(address: string)
    requires StartsWith(address, "git@")
    ensures CleanRemoteUrl(address + ".git") == SshToHttps(address)
  {
    var core := address + ".git";
    assert core[0] == 'g' && core[|core| - 1] == 't';
    TrimOfPadded([], core, []);
    assert [] + core + [] == core;
    StripGitSuffixOfAppended(address);
    CleanUnfold(core, address);
  }

  /** The two cases of `CleanRemoteUrl`, once trimming and suffix removal
      are known. */
  lemma CleanUnfold(raw: string, clean: string)
    requires StripGitSuffix(Trim(raw)) == clean
    ensures StartsWith(clean, "git@") ==> CleanRemoteUrl(raw) == SshToHttps(clean)
    ensures !StartsWith(clean, "git@") ==> CleanRemoteUrl(raw) == clean
  {
  }

  /** A remote that is not an SSH address is returned trimmed and without one
      ".git" suffix, otherwise verbatim. */
  lemma CleanHttpsRemote(lead: string, address: string, trail: string)
    requires AllWhitespace(lead) && AllWhitespace(trail)
    requires address != [] && !IsWhitespace(address[0])
    requires !StartsWith(address, "git@")
    ensures CleanRemoteUrl(lead + (address + ".git") + trail) == address
    ensures !EndsWith(address, ".git") && !IsWhitespace(address[|address| - 1]) ==>
              CleanRemoteUrl(lead + address + trail) == address
  {
    var core := address + ".git";
    assert core[0] == address[0] && core[|core| - 1] == 't';
    CleanIgnoresPadding(lead, core, trail);
    CleanTrimmedHttpsRemote(address);
    if !EndsWith(address, ".git") && !IsWhitespace(address[|address| - 1]) {
      CleanIgnoresPadding(lead, address, trail);
    }
  }

  /** `CleanHttpsRemote` without surrounding whitespace. */
  lemma CleanTrimmedHttpsRemote(address: string)
    requires address != [] && !IsWhitespace(address[0])
    requires !StartsWith(address, "git@")
    ensures CleanRemoteUrl(address + ".git") == address
  {
    var core := address + ".git";
    assert core[0] == address[0] && core[|core| - 1] == 't';
    TrimOfPadded([], core, []);
    assert [] + core + [] == core;
    StripGitSuffixOfAppended(address);
    assert StripGitSuffix(Trim(core)) == address;
  }

  /** Cleaning is not idempotent: of a doubled suffix only one copy goes,
      and cleaning again removes the other. */
  lemma CleanStripsOnlyOneSuffix(address: string)
    requires address != [] && !IsWhitespace(address[0])
    requires !StartsWith(address, "git@")
    ensures CleanRemoteUrl(address + ".git" + ".git") == address + ".git"
    ensures CleanRemoteUrl(CleanRemoteUrl(address + ".git" + ".git")) == address
  {
    var once := address + ".git";
    assert once[0] == address[0];
    NoSshPrefixAfterAppend(address);
    CleanTrimmedHttpsRemote(once);
    CleanTrimmedHttpsRemote(address);
  }

  /** Appending ".git" cannot create a "git@" prefix. */
  lemma NoSshPrefixAfterAppend(address: string)
    requires address != [] && !StartsWith(address, "git@")
    ensures !StartsWith(address + ".git", "git@")
  {
    var suffix := ".git";
    var once := address + suffix;
    if |address| >= 4 {
      assert once[..4] == address[..4];
    } else {
      assert once[3] == suffix[3 - |address|];
    }
  }

  /** `getRemoteUrl`: `revParse` and `configGet` are the outcomes of
      `git rev-parse --is-inside-work-tree` and
      `git config --get remote.origin.url` in `path`. A `GitError` raised on
      the way is passed on as it is; anything else the config read rejects
      with is wrapped. */
  function GetRemoteUrl(path: string, revParse: ExecOutcome, configGet: ExecOutcome): (r: Result<string, GitError>)
    ensures r.Ok? <==> path != "" && revParse.Completed? && configGet.Completed?
                       && !AllWhitespace(configGet.stdout)
    ensures r.Ok? ==> r.value == CleanRemoteUrl(configGet.stdout)
  {
    if path == "" then Err(GitError(PathRequired, None))
    else match IsGitRepository(path, revParse)
      case Err(e) => Err(e)
      case Ok(false) => Err(GitError(NotARepository, None))
      case Ok(true) =>
        match configGet
        case Rejected(GitFailure(g)) => Err(g)
        case Rejected(t) =>
          Err(GitError("Failed to get remote repository URL: " + DescribeThrown(t), Some(ConfigCommand)))
        case Completed(stdout) =>
          TrimEmptyIffBlank(stdout);
          if Trim(stdout) == "" then Err(GitError(NoRemoteUrl, None))
          else Ok(CleanRemoteUrl(stdout))
  }

  /** The error `getRemoteUrl` reports for each way it can fail. */
  lemma RemoteUrlErrors(path: string, revParse: ExecOutcome, configGet: ExecOutcome)
    ensures path == "" ==> GetRemoteUrl(path, revParse, configGet) == Err(GitError(PathRequired, None))
    ensures path != "" && revParse.Rejected? && SaysNotARepository(revParse.reason) ==>
              GetRemoteUrl(path, revParse, configGet) == Err(GitError(NotARepository, None))
    ensures path != "" && revParse.Rejected? && !SaysNotARepository(revParse.reason) ==>
              var e := GetRemoteUrl(path, revParse, configGet).error;
              e.command == Some(RevParseCommand)
              && e.message == "Failed to check Git repository status: " + DescribeThrown(revParse.reason)
    ensures path != "" && revParse.Completed? && configGet.Rejected? && configGet.reason.GitFailure? ==>
              GetRemoteUrl(path, revParse, configGet) == Err(configGet.reason.git)
    ensures path != "" && revParse.Completed? && configGet.Rejected? && !configGet.reason.GitFailure? ==>
              var e := GetRemoteUrl(path, revParse, configGet).error;
              e.command == Some(ConfigCommand)
              && e.message == "Failed to get remote repository URL: " + DescribeThrown(configGet.reason)
    ensures path != "" && revParse.Completed? && configGet.Completed? && AllWhitespace(configGet.stdout) ==>
              GetRemoteUrl(path, revParse, configGet) == Err(GitError(NoRemoteUrl, None))
  {
    if path != "" && revParse.Completed? && configGet.Completed? && AllWhitespace(configGet.stdout) {
      TrimEmptyIffBlank(configGet.stdout);
    }
  }

  /** The repository check comes first: once `git rev-parse` has failed, the
      outcome of the config read makes no difference. */
  lemma RepositoryCheckPrecedesRemoteRead(path: string, revParse: ExecOutcome, c1: ExecOutcome, c2: ExecOutcome)
    requires revParse.Rejected?
    ensures GetRemoteUrl(path, revParse, c1) == GetRemoteUrl(path, revParse, c2)
    ensures GetRemoteUrl(path, revParse, c1).Err?
  {
  }
}

=== FILE: repo_selection.dfy ===
/** The per-workspace history of repository selections used to suggest a
    repository in multi-root workspaces. The persisted state is a map from
    workspace path to an ordered list of selection records; every operation
    takes the current time `now` (milliseconds) explicitly. */
module RepoSelection {
  import opened Results
  import StableSort

  /** At most this many records are kept per workspace. */
  const MaxHistoryPerWorkspace: nat := 5

  /** Records older than seven days, in milliseconds, are expired. */
  const HistoryTtl: int := 7 * 24 * 60 * 60 * 1000

  /** One repository chosen in one workspace: when it was last chosen and how
      many times it has been chosen. */
  datatype SelectionRecord = SelectionRecord(repoPath: string, timestamp: int, count: int)

  /** Workspace path to its selection records, in stored order. */
  type History = map<string, seq<SelectionRecord>>

  /** The records of a workspace, or none when the workspace is absent. */
  function ListOf(h: History, ws: string): seq<SelectionRecord> {
    if ws in h then h[ws] else []
  }

  /** A record is still within the retention window. */
  predicate IsLive(r: SelectionRecord, now: int) {
    now - r.timestamp <= HistoryTtl
  }

  /** A record stays live for exactly the TTL after its timestamp, the
      boundary instant included, and once expired it never becomes live
      again. */
  lemma LiveUntilTtlElapses(r: SelectionRecord, earlier: int, later: int)
    requires earlier <= later
    ensures IsLive(r, r.timestamp + HistoryTtl)
    ensures !IsLive(r, r.timestamp + HistoryTtl + 1)
    ensures IsLive(r, later) ==> IsLive(r, earlier)
  {
  }

  // ---------------------------------------------------------------------
  // Scoring

  /** `RepoSelectionCache`'s score, count * (1 + age / TTL), as an exact rational. */
  ghost function Score(r: SelectionRecord, now: int): real {
    (r.count as real) * (1.0 + ((now - r.timestamp) as real) / (HistoryTtl as real))
  }

  /** The score multiplied by the (positive) TTL: an integer with the same order. */
  function Weight(r: SelectionRecord, now: int): (w: int)
    ensures w as real == Score(r, now) * (HistoryTtl as real)
  {
    ScaledScore(r.count, now - r.timestamp);
    r.count * (HistoryTtl + (now - r.timestamp))
  }

  /** `count * (1 + age / TTL) * TTL` is the integer `count * (TTL + age)`. */
  lemma ScaledScore(count: int, age: int)
    ensures (count * (HistoryTtl + age)) as real
            == (count as real) * (1.0 + (age as real) / (HistoryTtl as real)) * (HistoryTtl as real)
  {
    var t := HistoryTtl as real;
    var a := age as real;
    var c := count as real;
    assert (1.0 + a / t) * t == t + a;
    calc {
      c * (1.0 + a / t) * t;
      c * ((1.0 + a / t) * t);
      c * (t + a);
    }
  }

  /** Comparing weights is comparing scores, so the integer sort key orders
      records exactly as the floating-point comparator would without rounding. */
  lemma WeightOrderIsScoreOrder(a: SelectionRecord, b: SelectionRecord, now: int)
    ensures Weight(a, now) <= Weight(b, now) <==> Score(a, now) <= Score(b, now)
  {
    var t := HistoryTtl as real;
    assert Weight(a, now) as real == Score(a, now) * t;
    assert Weight(b, now) as real == Score(b, now) * t;
  }

  // ---------------------------------------------------------------------
  // Sorting by ascending score

  /** The sort key at time `now`. */
  function WeightAt(now: int): SelectionRecord -> int {
    r => Weight(r, now)
  }

  function PathOf(r: SelectionRecord): string {
    r.repoPath
  }

  ghost predicate SortedByScore(s: seq<SelectionRecord>, now: int) {
    StableSort.SortedBy(s, WeightAt(now))
  }

  /** No two records of a list name the same repository. */
  ghost predicate DistinctPaths(s: seq<SelectionRecord>) {
    StableSort.DistinctBy(s, PathOf)
  }

  /** The `sort` call with the comparator `scoreA - scoreB`: ascending
      score, ties in their original order. */
  function SortByScore(s: seq<SelectionRecord>, now: int): (r: seq<SelectionRecord>)
    ensures |r| == |s|
    ensures SortedByScore(r, now)
    ensures multiset(r) == multiset(s)
  {
    StableSort.Sort(s, WeightAt(now))
  }

  // ---------------------------------------------------------------------
  // Recording a selection

  /** `Array.prototype.findIndex` on the repository path. */
  function FindPath(s: seq<SelectionRecord>, path: string): (r: Option<nat>)
    ensures r.Some? ==> r.value < |s| && s[r.value].repoPath == path
                        && forall k :: 0 <= k < r.value ==> s[k].repoPath != path
    ensures r.None? ==> forall k :: 0 <= k < |s| ==> s[k].repoPath != path
  {
    if s == [] then None
    else if s[0].repoPath == path then Some(0)
    else match FindPath(s[1..], path)
      case None => None
      case Some(i) => Some(i + 1)
  }

  /** Refreshes the record of `path` (one more selection, chosen now) or
      appends a new record for it. */
  function Upsert(s: seq<SelectionRecord>, path: string, now: int): (r: seq<SelectionRecord>)
    ensures |r| == if FindPath(s, path).Some? then |s| else |s| + 1
    ensures forall k :: 0 <= k < |s| && Some(k) != FindPath(s, path) ==> r[k] == s[k]
    ensures forall k :: 0 <= k < |s| && s[k].repoPath != path ==> r[k] == s[k]
    ensures FindPath(s, path).Some? ==>
              var i := FindPath(s, path).value;
              r[i] == SelectionRecord(path, now, s[i].count + 1)
    ensures FindPath(s, path).None? ==> r[|s|] == SelectionRecord(path, now, 1)
  {
    match FindPath(s, path)
    case Some(i) => s[i := SelectionRecord(path, now, s[i].count + 1)]
    case None => s + [SelectionRecord(path, now, 1)]
  }

  /** Keeps the first `n` records (`slice(0, n)`). */
  function Take(s: seq<SelectionRecord>, n: nat): (r: seq<SelectionRecord>)
    ensures |r| == if |s| <= n then |s| else n
    ensures r <= s
    ensures |s| <= n ==> r == s
  {
    if |s| <= n then s else s[..n]
  }

  /** One workspace's list after a selection of `path`: upsert, sort by
      ascending score, keep the first five. */
  function RecordInList(s: seq<SelectionRecord>, path: string, now: int): (r: seq<SelectionRecord>)
    ensures |r| <= MaxHistoryPerWorkspace
    ensures SortedByScore(r, now)
  {
    var sorted := SortByScore(Upsert(s, path, now), now);
    var kept := Take(sorted, MaxHistoryPerWorkspace);
    StableSort.PrefixKeepsSorted(sorted, |kept|, WeightAt(now));
    assert kept == sorted[..|kept|];
    kept
  }

  /** `recordSelection`: replaces the workspace's list (created empty when
      absent) by its updated form and leaves every other workspace alone. */
  function RecordSelection(h: History, ws: string, path: string, now: int): (r: History)
    ensures r.Keys == h.Keys + {ws}
    ensures forall w :: w in h && w != ws ==> r[w] == h[w]
    ensures r[ws] == RecordInList(ListOf(h, ws), path, now)
    ensures |r[ws]| <= MaxHistoryPerWorkspace
    ensures SortedByScore(r[ws], now)
  {
    h[ws := RecordInList(ListOf(h, ws), path, now)]
  }

  /** Truncation evicts the highest-scored records: every kept record scores
      no more than every evicted one, and nothing is evicted while the
      updated list fits. */
  lemma RecordInListKeepsLowestScores(s: seq<SelectionRecord>, path: string, now: int)
    ensures var all := Upsert(s, path, now);
            var kept := RecordInList(s, path, now);
            && |kept| == (if |all| <= MaxHistoryPerWorkspace then |all| else MaxHistoryPerWorkspace)
            && multiset(kept) <= multiset(all)
            && (forall a, b :: a in kept && b in multiset(all) - multiset(kept) ==> Weight(a, now) <= Weight(b, now))
            && (|all| <= MaxHistoryPerWorkspace ==> multiset(kept) == multiset(all))
  {
    var all := Upsert(s, path, now);
    var sorted := SortByScore(all, now);
    var n := if |all| <= MaxHistoryPerWorkspace then |all| else MaxHistoryPerWorkspace;
    RecordInListIsPrefix(s, path, now);
    StableSort.PrefixHoldsSmallest(sorted, n, WeightAt(now));
    var kept := sorted[..n];
    forall a, b | a in kept && b in multiset(all) - multiset(kept)
      ensures Weight(a, now) <= Weight(b, now)
    {
      assert WeightAt(now)(a) <= WeightAt(now)(b);
    }
    if |all| <= MaxHistoryPerWorkspace {
      assert kept == sorted;
    }
  }

  /** While the updated list fits, recording only reorders it. */
  lemma RecordInListKeepsAllThatFit(s: seq<SelectionRecord>, path: string, now: int)
    requires |Upsert(s, path, now)| <= MaxHistoryPerWorkspace
    ensures multiset(RecordInList(s, path, now)) == multiset(Upsert(s, path, now))
    ensures |RecordInList(s, path, now)| == |Upsert(s, path, now)|
  {
    RecordInListIsPrefix(s, path, now);
    var sorted := SortByScore(Upsert(s, path, now), now);
    assert sorted[..|sorted|] == sorted;
  }

  /** The kept list is the first `min(n, 5)` records of the sorted list. */
  lemma RecordInListIsPrefix(s: seq<SelectionRecord>, path: string, now: int)
    ensures var sorted := SortByScore(Upsert(s, path, now), now);
            var n := if |sorted| <= MaxHistoryPerWorkspace then |sorted| else MaxHistoryPerWorkspace;
            RecordInList(s, path, now) == sorted[..n]
  {
  }

  /** The invariant every stored list keeps: at most five records, one per
      repository, each chosen at least once. */
  ghost predicate WellFormedList(s: seq<SelectionRecord>) {
    && |s| <= MaxHistoryPerWorkspace
    && DistinctPaths(s)
    && forall r :: r in s ==> r.count >= 1
  }

  ghost predicate WellFormed(h: History) {
    forall w :: w in h ==> WellFormedList(h[w])
  }

  lemma UpsertKeepsInvariant(s: seq<SelectionRecord>, path: string, now: int)
    requires DistinctPaths(s) && forall r :: r in s ==> r.count >= 1
    ensures DistinctPaths(Upsert(s, path, now))
    ensures forall r :: r in Upsert(s, path, now) ==> r.count >= 1
  {
    var u := Upsert(s, path, now);
    match FindPath(s, path)
    case Some(i) =>
      assert u == s[i := SelectionRecord(path, now, s[i].count + 1)];
      assert s[i] in s;
      forall r | r in u ensures r.count >= 1 {
        var k :| 0 <= k < |u| && u[k] == r;
        if k != i { assert s[k] in s; }
      }
      forall a, b | 0 <= a < b < |u| ensures PathOf(u[a]) != PathOf(u[b]) {
        assert PathOf(s[a]) != PathOf(s[b]);
      }
    case None =>
      assert u == s + [SelectionRecord(path, now, 1)];
      forall a, b | 0 <= a < b < |u| ensures PathOf(u[a]) != PathOf(u[b]) {
        if b < |s| {
          assert PathOf(s[a]) != PathOf(s[b]);
        }
      }
  }

  /** Recording keeps a well-formed list well formed. */
  lemma RecordInListPreservesWellFormed(s: seq<SelectionRecord>, path: string, now: int)
    requires WellFormedList(s)
    ensures WellFormedList(RecordInList(s, path, now))
    ensures SortedByScore(RecordInList(s, path, now), now)
  {
    var all := Upsert(s, path, now);
    UpsertKeepsInvariant(s, path, now);
    var sorted := SortByScore(all, now);
    StableSort.SortKeepsDistinct(all, WeightAt(now), PathOf);
    var kept := Take(sorted, MaxHistoryPerWorkspace);
    assert kept == RecordInList(s, path, now);
    forall a, b | 0 <= a < b < |kept| ensures PathOf(kept[a]) != PathOf(kept[b]) {
      assert kept[a] == sorted[a] && kept[b] == sorted[b];
    }
    forall r | r in kept ensures r.count >= 1 {
      assert r in sorted;
      assert r in multiset(sorted);
      assert r in multiset(all);
    }
  }

  lemma RecordSelectionPreservesWellFormed(h: History, ws: string, path: string, now: int)
    requires WellFormed(h)
    ensures WellFormed(RecordSelection(h, ws, path, now))
  {
    RecordInListPreservesWellFormed(ListOf(h, ws), path, now);
  }

  /** In a list without duplicate paths a path determines its position. */
  lemma SamePathSameIndex(s: seq<SelectionRecord>, i: nat, j: nat)
    requires DistinctPaths(s)
    requires i < |s| && j < |s|
    ensures s[i].repoPath == s[j].repoPath ==> i == j
  {
    if i < j {
      assert PathOf(s[i]) != PathOf(s[j]);
    } else if j < i {
      assert PathOf(s[j]) != PathOf(s[i]);
    }
  }

  /** Choosing a repository that is already listed refreshes its record — one
      more selection, timestamp `now` — and adds no record. */
  lemma RecordExistingPath(s: seq<SelectionRecord>, path: string, now: int, i: nat)
    requires WellFormedList(s)
    requires i < |s| && s[i].repoPath == path
    ensures var kept := RecordInList(s, path, now);
            var refreshed := SelectionRecord(path, now, s[i].count + 1);
            && |kept| == |s|
            && multiset(kept) == multiset(s) - multiset{s[i]} + multiset{refreshed}
            && refreshed in kept
  {
    SamePathSameIndex(s, FindPath(s, path).value, i);
    var refreshed := SelectionRecord(path, now, s[i].count + 1);
    var all := s[i := refreshed];
    assert Upsert(s, path, now) == all;
    RecordInListKeepsAllThatFit(s, path, now);
    var kept := RecordInList(s, path, now);
    assert multiset(kept) == multiset(all);
    assert refreshed in multiset(all) by {
      assert all[i] == refreshed;
    }
  }

  /** Choosing a repository that is not listed adds the record
      `{path, now, 1}` before the sort; it is kept whenever the list had room. */
  lemma RecordNewPath(s: seq<SelectionRecord>, path: string, now: int)
    requires forall r :: r in s ==> r.repoPath != path
    ensures var kept := RecordInList(s, path, now);
            var added := SelectionRecord(path, now, 1);
            && |kept| == (if |s| < MaxHistoryPerWorkspace then |s| + 1 else MaxHistoryPerWorkspace)
            && multiset(kept) <= multiset(s) + multiset{added}
            && (|s| < MaxHistoryPerWorkspace ==> multiset(kept) == multiset(s) + multiset{added})
  {
    var added := SelectionRecord(path, now, 1);
    assert Upsert(s, path, now) == s + [added];
    RecordInListKeepsLowestScores(s, path, now);
  }

  // ---------------------------------------------------------------------
  // Reading the history

  /** The records of `s` still within the retention window, in order
      (`filter(r => now - r.timestamp <= TTL)`). */
  function LiveRecords(s: seq<SelectionRecord>, now: int): (r: seq<SelectionRecord>)
    ensures |r| <= |s|
    ensures forall x :: x in r <==> x in s && IsLive(x, now)
  {
    if s == [] then []
    else
      assert forall x :: x in s <==> x == s[0] || x in s[1..];
      (if IsLive(s[0], now) then [s[0]] else []) + LiveRecords(s[1..], now)
  }

  /** Filtering distributes over concatenation: the survivors keep their
      relative order. */
  lemma {:induction false} LiveRecordsAppend(a: seq<SelectionRecord>, b: seq<SelectionRecord>, now: int)
    ensures LiveRecords(a + b, now) == LiveRecords(a, now) + LiveRecords(b, now)
  {
    if a == [] {
      assert a + b == b;
    } else {
      assert (a + b)[0] == a[0];
      assert (a + b)[1..] == a[1..] + b;
      LiveRecordsAppend(a[1..], b, now);
    }
  }

  /** A filter that removes nothing returns its input. */
  lemma {:induction false} LiveRecordsFull(s: seq<SelectionRecord>, now: int)
    requires |LiveRecords(s, now)| == |s|
    ensures LiveRecords(s, now) == s
  {
    if s != [] {
      assert |LiveRecords(s[1..], now)| <= |s[1..]|;
      LiveRecordsFull(s[1..], now);
    }
  }

  /** Nothing is filtered out of a list whose records are all unexpired. */
  lemma {:induction false} LiveRecordsAllLive(s: seq<SelectionRecord>, now: int)
    requires forall i :: 0 <= i < |s| ==> IsLive(s[i], now)
    ensures LiveRecords(s, now) == s
  {
    if s != [] {
      assert IsLive(s[0], now);
      LiveRecordsAllLive(s[1..], now);
      assert s == [s[0]] + s[1..];
    }
  }

  lemma {:induction false} LiveRecordsIdempotent(s: seq<SelectionRecord>, now: int)
    ensures LiveRecords(LiveRecords(s, now), now) == LiveRecords(s, now)
  {
    if s != [] {
      var head := if IsLive(s[0], now) then [s[0]] else [];
      LiveRecordsAppend(head, LiveRecords(s[1..], now), now);
      LiveRecordsIdempotent(s[1..], now);
      assert LiveRecords(head, now) == head by {
        if head != [] { assert head[1..] == []; }
      }
    }
  }

  lemma {:induction false} LiveRecordsKeepsPathsDistinct(s: seq<SelectionRecord>, now: int)
    requires DistinctPaths(s)
    ensures DistinctPaths(LiveRecords(s, now))
  {
    if s != [] {
      LiveRecordsKeepsPathsDistinct(s[1..], now);
      var rest := LiveRecords(s[1..], now);
      if IsLive(s[0], now) {
        forall j | 0 <= j < |rest| ensures rest[j].repoPath != s[0].repoPath {
          assert rest[j] in rest;
          var k :| 0 <= k < |s[1..]| && s[1..][k] == rest[j];
          assert s[k + 1] == rest[j];
        }
        assert ([s[0]] + rest)[1..] == rest;
      } else {
        assert [] + rest == rest;
      }
    }
  }

  /** The repository paths of a list of records. */
  function Paths(s: seq<SelectionRecord>): (r: seq<string>)
    ensures |r| == |s|
    ensures forall i :: 0 <= i < |s| ==> r[i] == s[i].repoPath
  {
    seq(|s|, i requires 0 <= i < |s| => s[i].repoPath)
  }

  lemma PathsMembership(s: seq<SelectionRecord>)
    ensures forall p :: p in Paths(s) <==> exists x :: x in s && x.repoPath == p
  {
    forall p | p in Paths(s) ensures exists x :: x in s && x.repoPath == p {
      var i :| 0 <= i < |s| && Paths(s)[i] == p;
      assert s[i] in s;
    }
    forall p | exists x :: x in s && x.repoPath == p ensures p in Paths(s) {
      var x :| x in s && x.repoPath == p;
      var i :| 0 <= i < |s| && s[i] == x;
      assert Paths(s)[i] == p;
    }
  }

  /** `getLastSelected`: the first stored record's path, unless the
      workspace has no records or that first record has expired. */
  function GetLastSelected(h: History, ws: string, now: int): (r: Option<string>)
    ensures r.Some? <==> |ListOf(h, ws)| > 0 && IsLive(ListOf(h, ws)[0], now)
    ensures r.Some? ==> r.value == ListOf(h, ws)[0].repoPath
  {
    if ws !in h || |h[ws]| == 0 then None
    else if now - h[ws][0].timestamp > HistoryTtl then None
    else Some(h[ws][0].repoPath)
  }

  /** `getSuggestions`: the paths of the workspace's unexpired records in
      stored order; empty for an unknown workspace. */
  function GetSuggestions(h: History, ws: string, now: int): (r: seq<string>)
    ensures |r| <= |ListOf(h, ws)|
    ensures forall p :: p in r <==> exists x :: x in ListOf(h, ws) && IsLive(x, now) && x.repoPath == p
  {
    if ws !in h then []
    else
      var live := LiveRecords(h[ws], now);
      PathsMembership(live);
      Paths(live)
  }

  /** The suggestion list is exactly the unexpired records' paths in stored
      order, so it changes only by dropping expired entries. */
  lemma SuggestionsAreLiveRecordsInOrder(h: History, ws: string, now: int)
    ensures GetSuggestions(h, ws, now) == Paths(LiveRecords(ListOf(h, ws), now))
  {
  }

  /** Whenever a last selection is reported, it heads the suggestion list. */
  lemma LastSelectedHeadsSuggestions(h: History, ws: string, now: int)
    requires GetLastSelected(h, ws, now).Some?
    ensures |GetSuggestions(h, ws, now)| > 0
    ensures GetSuggestions(h, ws, now)[0] == GetLastSelected(h, ws, now).value
  {
    var s := h[ws];
    assert s == [s[0]] + s[1..];
    LiveRecordsAppend([s[0]], s[1..], now);
    assert LiveRecords([s[0]], now) == [s[0]] by {
      assert [s[0]][1..] == [];
    }
  }

  // ---------------------------------------------------------------------
  // Clearing and cleanup

  /** `clearWorkspace`: forgets one workspace. */
  function ClearWorkspace(h: History, ws: string): (r: History)
    ensures r.Keys == h.Keys - {ws}
    ensures forall w :: w in r ==> r[w] == h[w]
  {
    h - {ws}
  }

  /** `clearAll`: the empty history. */
  function ClearAll(): (r: History)
    ensures |r| == 0
    ensures forall ws, now :: GetSuggestions(r, ws, now) == [] && GetLastSelected(r, ws, now) == None
  {
    map[]
  }

  /** After clearing a workspace nothing is suggested for it, and every other
      workspace answers as before. */
  lemma ClearWorkspaceForgetsOnlyIt(h: History, ws: string, other: string, now: int)
    requires other != ws
    ensures GetSuggestions(ClearWorkspace(h, ws), ws, now) == []
    ensures GetLastSelected(ClearWorkspace(h, ws), ws, now) == None
    ensures GetSuggestions(ClearWorkspace(h, ws), other, now) == GetSuggestions(h, other, now)
    ensures GetLastSelected(ClearWorkspace(h, ws), other, now) == GetLastSelected(h, other, now)
  {
  }

  /** The history after removing expired records and then every workspace
      left without records. */
  function Pruned(h: History, now: int): (r: History)
    ensures r.Keys <= h.Keys
    ensures forall w :: w in r ==> r[w] != [] && forall x :: x in r[w] ==> IsLive(x, now)
    ensures forall w, x :: w in h && x in h[w] && IsLive(x, now) ==> w in r && x in r[w]
    ensures forall w :: w in r ==> r[w] == LiveRecords(h[w], now)
  {
    map w | w in h && LiveRecords(h[w], now) != [] :: LiveRecords(h[w], now)
  }

  /** Cleanup of one workspace changes something. */
  predicate Shrinks(s: seq<SelectionRecord>, now: int) {
    var live := LiveRecords(s, now);
    |live| == 0 || |live| != |s|
  }

  /** The pruned history differs from the original exactly when some
      workspace loses a record or is deleted. */
  lemma PrunedChangesIffSomeShrinks(h: History, now: int)
    ensures Pruned(h, now) != h <==> SomeShrinks(h, h.Keys, now)
  {
    var p := Pruned(h, now);
    if exists w :: w in h && Shrinks(h[w], now) {
      var w :| w in h && Shrinks(h[w], now);
      if LiveRecords(h[w], now) == [] {
        assert w !in p;
      } else {
        assert |p[w]| != |h[w]|;
      }
    } else {
      forall w | w in h ensures w in p && p[w] == h[w] {
        LiveRecordsFull(h[w], now);
      }
      assert p == h;
    }
  }

  /** `cleanup`: walks the workspaces, filters out expired records, deletes
      workspaces left empty, and reports whether anything changed
      (`RepoSelectionCache` saves the history only then). */
  method Cleanup(h: History, now: int) returns (pruned: History, saved: bool)
    ensures pruned == Pruned(h, now)
    ensures saved <==> pruned != h
  {
    pruned := h;
    saved := false;
    var pending := h.Keys;
    assert pruned == PartlyPruned(h, pending, now);
    while pending != {}
      invariant pending <= h.Keys
      invariant pruned == PartlyPruned(h, pending, now)
      invariant saved <==> SomeShrinks(h, h.Keys - pending, now)
      decreases pending
    {
      var w :| w in pending;
      PartlyPrunedStep(h, pending, w, now);
      var originalLength := |pruned[w]|;
      var live := LiveRecords(pruned[w], now);
      pruned := pruned[w := live];
      if |live| == 0 {
        pruned := pruned - {w};
        saved := true;
      } else if |live| != originalLength {
        saved := true;
      }
      SomeShrinksStep(h, h.Keys - pending, w, now);
      assert h.Keys - (pending - {w}) == (h.Keys - pending) + {w};
      pending := pending - {w};
    }
    assert h.Keys - pending == h.Keys;
    NothingPendingIsPruned(h, now);
    PrunedChangesIffSomeShrinks(h, now);
  }

  /** Some workspace among `done` loses a record or is deleted. */
  ghost predicate SomeShrinks(h: History, done: set<string>, now: int) {
    exists w :: w in done && w in h && Shrinks(h[w], now)
  }

  lemma SomeShrinksStep(h: History, done: set<string>, w: string, now: int)
    requires w in h
    ensures SomeShrinks(h, done + {w}, now) <==> SomeShrinks(h, done, now) || Shrinks(h[w], now)
  {
  }

  /** The history after the workspaces outside `pending` have been cleaned
      up and those in it not yet. */
  ghost function PartlyPruned(h: History, pending: set<string>, now: int): History {
    map w | w in h && (w in pending || LiveRecords(h[w], now) != []) ::
      if w in pending then h[w] else LiveRecords(h[w], now)
  }

  /** With nothing pending the history is fully pruned. */
  lemma NothingPendingIsPruned(h: History, now: int)
    ensures PartlyPruned(h, {}, now) == Pruned(h, now)
  {
  }

  /** Cleaning up one more pending workspace. */
  lemma PartlyPrunedStep(h: History, pending: set<string>, w: string, now: int)
    requires w in pending && pending <= h.Keys
    ensures var before := PartlyPruned(h, pending, now);
            var live := LiveRecords(h[w], now);
            && w in before && before[w] == h[w]
            && PartlyPruned(h, pending - {w}, now) == if live == [] then before - {w} else before[w := live]
  {
  }

  /** A second cleanup at the same time finds nothing to do. */
  lemma CleanupIdempotent(h: History, now: int)
    ensures Pruned(Pruned(h, now), now) == Pruned(h, now)
  {
    var p := Pruned(h, now);
    forall w | w in p ensures LiveRecords(p[w], now) == p[w] {
      LiveRecordsIdempotent(h[w], now);
    }
  }

  lemma CleanupPreservesWellFormed(h: History, now: int)
    requires WellFormed(h)
    ensures WellFormed(Pruned(h, now))
  {
    var p := Pruned(h, now);
    forall w | w in p ensures WellFormedList(p[w]) {
      LiveRecordsKeepsPathsDistinct(h[w], now);
    }
  }

  lemma ClearWorkspacePreservesWellFormed(h: History, ws: string)
    requires WellFormed(h)
    ensures WellFormed(ClearWorkspace(h, ws))
  {
  }

  // ---------------------------------------------------------------------
  // The order the comparator produces

  /** With the ascending comparator, a repository chosen three times is listed
      AFTER one chosen once a moment later: the more frequently used path is
      the higher-scored one, so it is last in the suggestions and is the first
      to be evicted. */
  lemma FrequentPathListedLast(ws: string, p: string, q: string, t1: int, t2: int, t3: int, t4: int)
    requires p != q
    requires t1 <= t2 <= t3 <= t4 && t4 - t3 <= HistoryTtl
    ensures var h4 := ScenarioHistory(ws, p, q, t1, t2, t3, t4);
            && GetSuggestions(h4, ws, t4) == [q, p]
            && GetLastSelected(h4, ws, t4) == Some(q)
  {
    var h4 := ScenarioHistory(ws, p, q, t1, t2, t3, t4);
    ReadTwoLiveRecords(h4, ws, SelectionRecord(q, t4, 1), SelectionRecord(p, t3, 3), t4);
  }

  /** What the reads return for a workspace holding two unexpired records. */
  lemma ReadTwoLiveRecords(h: History, ws: string, first: SelectionRecord, second: SelectionRecord, now: int)
    requires ws in h && h[ws] == [first, second]
    requires IsLive(first, now) && IsLive(second, now)
    ensures GetSuggestions(h, ws, now) == [first.repoPath, second.repoPath]
    ensures GetLastSelected(h, ws, now) == Some(first.repoPath)
  {
    LiveRecordsAllLive([first, second], now);
    var suggested := Paths([first, second]);
    assert suggested[0] == first.repoPath && suggested[1] == second.repoPath;
    assert suggested == [first.repoPath, second.repoPath];
  }

  /** The history the scenario above leaves behind. */
  function ScenarioHistory(ws: string, p: string, q: string, t1: int, t2: int, t3: int, t4: int): (h: History)
    requires p != q && t1 <= t2 <= t3 <= t4
    ensures ws in h && h[ws] == [SelectionRecord(q, t4, 1), SelectionRecord(p, t3, 3)]
  {
    var h1 := RecordSelection(map[], ws, p, t1);
    var h2 := RecordSelection(h1, ws, p, t2);
    var h3 := RecordSelection(h2, ws, p, t3);
    FrequentListOrder(p, q, t1, t2, t3, t4);
    RecordSelection(h3, ws, q, t4)
  }

  /** The stored list of the scenario above. */
  lemma FrequentListOrder(p: string, q: string, t1: int, t2: int, t3: int, t4: int)
    requires p != q
    requires t1 <= t2 <= t3 <= t4
    ensures var l1 := RecordInList([], p, t1);
            var l2 := RecordInList(l1, p, t2);
            var l3 := RecordInList(l2, p, t3);
            RecordInList(l3, q, t4) == [SelectionRecord(q, t4, 1), SelectionRecord(p, t3, 3)]
  {
    RecordIntoEmpty(p, t1);
    RecordSameIntoSingleton(SelectionRecord(p, t1, 1), t2);
    RecordSameIntoSingleton(SelectionRecord(p, t2, 2), t3);
    var a := SelectionRecord(p, t3, 3);
    var b := SelectionRecord(q, t4, 1);
    assert Weight(b, t4) == HistoryTtl;
    assert Weight(a, t4) == 3 * (HistoryTtl + (t4 - t3));
    RecordLighterIntoSingleton(a, q, t4);
  }

  lemma RecordIntoEmpty(path: string, now: int)
    ensures RecordInList([], path, now) == [SelectionRecord(path, now, 1)]
  {
    var x := SelectionRecord(path, now, 1);
    assert Upsert([], path, now) == [x];
    assert SortByScore([x], now) == [x] by {
      assert [x][1..] == [];
    }
  }

  lemma RecordSameIntoSingleton(x: SelectionRecord, now: int)
    ensures RecordInList([x], x.repoPath, now) == [SelectionRecord(x.repoPath, now, x.count + 1)]
  {
    var y := SelectionRecord(x.repoPath, now, x.count + 1);
    assert FindPath([x], x.repoPath) == Some(0);
    assert Upsert([x], x.repoPath, now) == [y];
    assert SortByScore([y], now) == [y] by {
      assert [y][1..] == [];
    }
  }

  /** A new record that weighs less than the single stored one goes first. */
  lemma RecordLighterIntoSingleton(a: SelectionRecord, path: string, now: int)
    requires a.repoPath != path
    requires Weight(SelectionRecord(path, now, 1), now) < Weight(a, now)
    ensures RecordInList([a], path, now) == [SelectionRecord(path, now, 1), a]
  {
    var b := SelectionRecord(path, now, 1);
    assert FindPath([a], path) == None by {
      assert [a][1..] == [];
    }
    assert Upsert([a], path, now) == [a, b];
    assert [a, b][1..] == [b];
    assert [b][1..] == [];
    assert SortByScore([b], now) == [b];
    assert StableSort.Insert(a, [b], WeightAt(now)) == [b, a];
    assert SortByScore([a, b], now) == [b, a];
  }
}

=== FILE: results.dfy ===
/** Failure-carrying return values used in place of thrown exceptions and
    `undefined` results. */
module Results {

  /** A value that may be absent (`undefined` in TypeScript). */
  datatype Option<+T> = None | Some(value: T)

  /** Either a computed value or the error the TypeScript code would throw. */
  datatype Result<+T, +E> = Ok(value: T) | Err(error: E)
}

=== FILE: stable_sort.dfy ===
/** Stable insertion sort by an integer key: the behaviour of JavaScript's
    `Array.prototype.sort` (stable since ES2019) with a consistent numeric
    comparator `key(a) - key(b)`. */
module StableSort {

  ghost predicate SortedBy<T>(s: seq<T>, key: T -> int) {
    forall i, j :: 0 <= i < j < |s| ==> key(s[i]) <= key(s[j])
  }

  /** No two elements share an identity. */
  ghost predicate DistinctBy<T, K>(s: seq<T>, id: T -> K) {
    forall i, j :: 0 <= i < j < |s| ==> id(s[i]) != id(s[j])
  }

  /** A prefix of a sorted sequence is sorted. */
  lemma PrefixKeepsSorted<T>(s: seq<T>, n: nat, key: T -> int)
    requires SortedBy(s, key) && n <= |s|
    ensures SortedBy(s[..n], key)
  {
    forall i, j | 0 <= i < j < n ensures key(s[..n][i]) <= key(s[..n][j]) {
      assert s[..n][i] == s[i] && s[..n][j] == s[j];
    }
  }

  /** Splitting a sorted sequence after `n` elements puts the smaller keys
      in front and loses nothing. */
  lemma SplitSorted<T>(s: seq<T>, n: nat, key: T -> int)
    requires SortedBy(s, key) && n <= |s|
    ensures multiset(s) == multiset(s[..n]) + multiset(s[n..])
    ensures forall a, b :: a in s[..n] && b in s[n..] ==> key(a) <= key(b)
  {
    assert s == s[..n] + s[n..];
    forall a, b | a in s[..n] && b in s[n..] ensures key(a) <= key(b) {
      var i :| 0 <= i < n && s[..n][i] == a;
      var j :| 0 <= j < |s| - n && s[n..][j] == b;
      assert s[i] == a && s[n + j] == b;
    }
  }

  /** The first `n` elements of a sorted sequence are the ones with the
      smallest keys: none of the rest has a smaller key than any of them. */
  lemma PrefixHoldsSmallest<T>(s: seq<T>, n: nat, key: T -> int)
    requires SortedBy(s, key) && n <= |s|
    ensures multiset(s[..n]) <= multiset(s)
    ensures forall a, b :: a in s[..n] && b in multiset(s) - multiset(s[..n]) ==> key(a) <= key(b)
  {
    SplitSorted(s, n, key);
    assert multiset(s) - multiset(s[..n]) == multiset(s[n..]);
  }

  /** Inserts `x` before the first element whose key is not below its own. */
  function Insert<T>(x: T, s: seq<T>, key: T -> int): (r: seq<T>)
    ensures |r| == |s| + 1
    ensures multiset(r) == multiset(s) + multiset{x}
  {
    if s == [] || key(x) <= key(s[0]) then [x] + s
    else
      assert s == [s[0]] + s[1..];
      [s[0]] + Insert(x, s[1..], key)
  }

  /** Every element of an insertion result is the inserted one or was already there. */
  lemma InsertMember<T>(x: T, s: seq<T>, key: T -> int, y: T)
    requires y in Insert(x, s, key)
    ensures y == x || y in s
  {
    assert y in multiset(Insert(x, s, key));
  }

  lemma {:induction false} InsertKeepsSorted<T>(x: T, s: seq<T>, key: T -> int)
    requires SortedBy(s, key)
    ensures SortedBy(Insert(x, s, key), key)
  {
    var r := Insert(x, s, key);
    if s == [] || key(x) <= key(s[0]) {
      forall i, j | 0 <= i < j < |r| ensures key(r[i]) <= key(r[j]) {
        assert r[j] == s[j - 1];
        if i > 0 {
          assert r[i] == s[i - 1];
        }
      }
    } else {
      var rest := Insert(x, s[1..], key);
      InsertKeepsSorted(x, s[1..], key);
      assert r == [s[0]] + rest;
      forall i, j | 0 <= i < j < |r| ensures key(r[i]) <= key(r[j]) {
        assert r[j] == rest[j - 1];
        if i == 0 {
          var y := rest[j - 1];
          assert y in rest;
          InsertMember(x, s[1..], key, y);
          if y != x {
            var k :| 0 <= k < |s[1..]| && s[1..][k] == y;
            assert s[k + 1] == y;
          }
        } else {
          assert r[i] == rest[i - 1];
        }
      }
    }
  }

  /** Stable ascending sort by `key`. */
  function Sort<T>(s: seq<T>, key: T -> int): (r: seq<T>)
    ensures |r| == |s|
    ensures SortedBy(r, key)
    ensures multiset(r) == multiset(s)
  {
    if s == [] then []
    else
      var rest := Sort(s[1..], key);
      InsertKeepsSorted(s[0], rest, key);
      assert s == [s[0]] + s[1..];
      Insert(s[0], rest, key)
  }

  /** The elements of `s` whose key is `k`, in order. */
  function WithKey<T>(s: seq<T>, k: int, key: T -> int): seq<T> {
    if s == [] then []
    else (if key(s[0]) == k then [s[0]] else []) + WithKey(s[1..], k, key)
  }

  lemma WithKeyCons<T>(y: T, s: seq<T>, k: int, key: T -> int)
    ensures WithKey([y] + s, k, key) == (if key(y) == k then [y] else []) + WithKey(s, k, key)
  {
    assert ([y] + s)[0] == y;
    assert ([y] + s)[1..] == s;
  }

  lemma {:induction false} InsertIsStable<T>(x: T, s: seq<T>, k: int, key: T -> int)
    requires SortedBy(s, key)
    ensures WithKey(Insert(x, s, key), k, key) == WithKey([x] + s, k, key)
  {
    if s == [] || key(x) <= key(s[0]) {
      assert Insert(x, s, key) == [x] + s;
    } else {
      var rest := Insert(x, s[1..], key);
      assert Insert(x, s, key) == [s[0]] + rest;
      assert SortedBy(s[1..], key) by {
        forall i, j | 0 <= i < j < |s[1..]| ensures key(s[1..][i]) <= key(s[1..][j]) {
          assert s[1..][i] == s[i + 1] && s[1..][j] == s[j + 1];
        }
      }
      InsertIsStable(x, s[1..], k, key);
      SwapUnequalKeys(x, s[0], s[1..], rest, k, key);
    }
  }

  /** Moving `x` past a record of strictly smaller key does not change the
      order within any key class. */
  lemma SwapUnequalKeys<T>(x: T, y: T, tail: seq<T>, rest: seq<T>, k: int, key: T -> int)
    requires key(y) < key(x)
    requires WithKey(rest, k, key) == WithKey([x] + tail, k, key)
    ensures WithKey([y] + rest, k, key) == WithKey([x] + ([y] + tail), k, key)
  {
    var hx := if key(x) == k then [x] else [];
    var hy := if key(y) == k then [y] else [];
    var t := WithKey(tail, k, key);
    WithKeyCons(y, rest, k, key);
    WithKeyCons(x, tail, k, key);
    WithKeyCons(y, tail, k, key);
    WithKeyCons(x, [y] + tail, k, key);
    assert WithKey([y] + rest, k, key) == hy + (hx + t);
    assert WithKey([x] + ([y] + tail), k, key) == hx + (hy + t);
    if hx != [] {
      assert hy == [];
    }
  }

  /** The sort is stable: the elements with any one key keep their original
      relative order. With sortedness and the permutation property this
      determines the result completely. */
  lemma {:induction false} SortIsStable<T>(s: seq<T>, k: int, key: T -> int)
    ensures WithKey(Sort(s, key), k, key) == WithKey(s, k, key)
  {
    if s != [] {
      var rest := Sort(s[1..], key);
      InsertIsStable(s[0], rest, k, key);
      SortIsStable(s[1..], k, key);
      WithKeyCons(s[0], rest, k, key);
      WithKeyCons(s[0], s[1..], k, key);
      assert s == [s[0]] + s[1..];
    }
  }

  lemma {:induction false} InsertKeepsDistinct<T, K>(x: T, s: seq<T>, key: T -> int, id: T -> K)
    requires DistinctBy([x] + s, id)
    ensures DistinctBy(Insert(x, s, key), id)
  {
    if s == [] || key(x) <= key(s[0]) {
    } else {
      var xs := [x] + s;
      var xs' := [x] + s[1..];
      forall i, j | 0 <= i < j < |xs'| ensures id(xs'[i]) != id(xs'[j]) {
        var i' := if i == 0 then 0 else i + 1;
        assert xs'[i] == xs[i'];
        assert xs'[j] == xs[j + 1];
      }
      InsertKeepsDistinct(x, s[1..], key, id);
      var rest := Insert(x, s[1..], key);
      var r := [s[0]] + rest;
      forall i, j | 0 <= i < j < |r| ensures id(r[i]) != id(r[j]) {
        assert r[j] == rest[j - 1];
        if i == 0 {
          var y := rest[j - 1];
          assert y in rest;
          InsertMember(x, s[1..], key, y);
          if y == x {
            assert xs[0] == x && xs[1] == s[0];
          } else {
            var k :| 0 <= k < |s[1..]| && s[1..][k] == y;
            assert xs[1] == s[0] && xs[k + 2] == y;
          }
        } else {
          assert r[i] == rest[i - 1];
        }
      }
    }
  }

  lemma {:induction false} SortKeepsDistinct<T, K>(s: seq<T>, key: T -> int, id: T -> K)
    requires DistinctBy(s, id)
    ensures DistinctBy(Sort(s, key), id)
  {
    if s != [] {
      var rest := Sort(s[1..], key);
      SortKeepsDistinct(s[1..], key, id);
      var xs := [s[0]] + rest;
      forall i, j | 0 <= i < j < |xs| ensures id(xs[i]) != id(xs[j]) {
        if i == 0 {
          var y := rest[j - 1];
          assert y in multiset(rest);
          assert y in multiset(s[1..]);
          var k :| 0 <= k < |s[1..]| && s[1..][k] == y;
          assert s[k + 1] == y;
        } else {
          assert xs[i] == rest[i - 1] && xs[j] == rest[j - 1];
        }
      }
      InsertKeepsDistinct(s[0], rest, key, id);
    }
  }
}

=== FILE: text.dfy ===
/** The few string operations the git helper takes from the JavaScript
    runtime: `trim`, `startsWith`, `includes`, first-occurrence `indexOf`,
    first-occurrence `replace` with a literal pattern, and the suffix test
    behind `replace(/\.git$/, '')`. */
module Text {
  import opened Results

  /** ASCII whitespace: space, tab, line feed and carriage return. */
  predicate IsWhitespace(c: char) {
    c == ' ' || c == '\t' || c == '\n' || c == '\r'
  }

  predicate AllWhitespace(s: string) {
    forall i :: 0 <= i < |s| ==> IsWhitespace(s[i])
  }

  predicate StartsWith(s: string, prefix: string) {
    prefix <= s
  }

  predicate EndsWith(s: string, suffix: string) {
    |suffix| <= |s| && s[|s| - |suffix|..] == suffix
  }

  /** A concatenation starts with its first part. */
  lemma StartsWithConcat(a: string, b: string)
    ensures StartsWith(a + b, a)
  {
    assert (a + b)[..|a|] == a;
  }

  /** Appending a path that starts with '/' gives a string that starts with
      the original followed by '/'. */
  lemma StartsWithSlash(a: string, path: string)
    requires |path| > 0 && path[0] == '/'
    ensures StartsWith(a + path, a + "/")
  {
    assert (a + path)[..|a| + 1] == a + "/";
  }

  /** `pat` occurs in `s` starting at index `i`. */
  predicate OccursAt(s: string, pat: string, i: int) {
    0 <= i && i + |pat| <= |s| && s[i..i + |pat|] == pat
  }

  /** The end of the whitespace run that starts at `i`. */
  function SkipWhitespace(s: string, i: nat): (r: nat)
    requires i <= |s|
    decreases |s| - i
    ensures i <= r <= |s|
    ensures forall k :: i <= k < r ==> IsWhitespace(s[k])
    ensures r == |s| || !IsWhitespace(s[r])
  {
    if i < |s| && IsWhitespace(s[i]) then SkipWhitespace(s, i + 1) else i
  }

  /** The start of the whitespace run that ends at `j`, not going below `lo`. */
  function SkipWhitespaceBack(s: string, lo: nat, j: nat): (r: nat)
    requires lo <= j <= |s|
    ensures lo <= r <= j
    ensures forall k :: r <= k < j ==> IsWhitespace(s[k])
    ensures r == lo || !IsWhitespace(s[r - 1])
  {
    if lo < j && IsWhitespace(s[j - 1]) then SkipWhitespaceBack(s, lo, j - 1) else j
  }

  /** `String.prototype.trim`: the slice of `s` left after removing
      whitespace at both ends. */
  function Trim(s: string): (r: string)
    ensures exists i, j :: 0 <= i <= j <= |s| && r == s[i..j]
                           && AllWhitespace(s[..i]) && AllWhitespace(s[j..])
    ensures r == [] || (!IsWhitespace(r[0]) && !IsWhitespace(r[|r| - 1]))
  {
    var i := SkipWhitespace(s, 0);
    var j := SkipWhitespaceBack(s, i, |s|);
    assert AllWhitespace(s[..i]) by {
      forall k | 0 <= k < i ensures IsWhitespace(s[..i][k]) { assert s[..i][k] == s[k]; }
    }
    assert AllWhitespace(s[j..]) by {
      forall k | 0 <= k < |s| - j ensures IsWhitespace(s[j..][k]) { assert s[j..][k] == s[j + k]; }
    }
    s[i..j]
  }

  /** The scan stops exactly at `n` when everything before it is whitespace
      and the character at `n` is not. */
  lemma {:induction false} SkipWhitespaceStopsAt(s: string, i: nat, n: nat)
    requires i <= n <= |s|
    requires forall k :: i <= k < n ==> IsWhitespace(s[k])
    requires n == |s| || !IsWhitespace(s[n])
    ensures SkipWhitespace(s, i) == n
    decreases n - i
  {
    if i < n {
      SkipWhitespaceStopsAt(s, i + 1, n);
    }
  }

  lemma {:induction false} SkipWhitespaceBackStopsAt(s: string, lo: nat, j: nat, n: nat)
    requires lo <= n <= j <= |s|
    requires forall k :: n <= k < j ==> IsWhitespace(s[k])
    requires n == lo || !IsWhitespace(s[n - 1])
    ensures SkipWhitespaceBack(s, lo, j) == n
    decreases j - n
  {
    if n < j {
      SkipWhitespaceBackStopsAt(s, lo, j - 1, n);
    }
  }

  /** A whitespace-padded core whose own ends are not whitespace trims to
      exactly that core. */
  lemma TrimOfPadded(lead: string, core: string, trail: string)
    requires AllWhitespace(lead) && AllWhitespace(trail)
    requires core == [] || (!IsWhitespace(core[0]) && !IsWhitespace(core[|core| - 1]))
    ensures Trim(lead + core + trail) == core
  {
    var s := lead + core + trail;
    var a := |lead|;
    var b := |lead| + |core|;
    assert s[a..b] == core;
    forall k | 0 <= k < a ensures IsWhitespace(s[k]) {
      assert s[k] == lead[k];
    }
    forall k | b <= k < |s| ensures IsWhitespace(s[k]) {
      assert s[k] == trail[k - b];
    }
    if core == [] {
      SkipWhitespaceStopsAt(s, 0, |s|);
      SkipWhitespaceBackStopsAt(s, |s|, |s|, |s|);
    } else {
      assert s[a] == core[0] && s[b - 1] == core[|core| - 1];
      SkipWhitespaceStopsAt(s, 0, a);
      SkipWhitespaceBackStopsAt(s, a, |s|, b);
    }
  }

  /** Trimming yields the empty string exactly when the input is blank. */
  lemma TrimEmptyIffBlank(s: string)
    ensures Trim(s) == [] <==> AllWhitespace(s)
  {
    if AllWhitespace(s) {
      TrimOfPadded(s, [], []);
      assert s + [] + [] == s;
    }
  }

  /** The first index at or after `from` where `pat` occurs. */
  function IndexOfFrom(s: string, pat: string, from: nat): (r: Option<nat>)
    decreases |s| - from
    ensures r.Some? ==> from <= r.value && OccursAt(s, pat, r.value)
    ensures r.Some? ==> forall k :: from <= k < r.value ==> !OccursAt(s, pat, k)
    ensures r.None? ==> forall k :: from <= k ==> !OccursAt(s, pat, k)
  {
    if from + |pat| > |s| then None
    else if s[from..from + |pat|] == pat then Some(from)
    else IndexOfFrom(s, pat, from + 1)
  }

  /** `String.prototype.indexOf`: the first occurrence of `pat` in `s`. */
  function IndexOf(s: string, pat: string): (r: Option<nat>)
    ensures r.Some? <==> exists k :: OccursAt(s, pat, k)
    ensures r.Some? ==> OccursAt(s, pat, r.value)
                        && forall k :: 0 <= k < r.value ==> !OccursAt(s, pat, k)
  {
    IndexOfFrom(s, pat, 0)
  }

  /** `String.prototype.includes`: `pat` occurs somewhere in `s`. */
  predicate Contains(s: string, pat: string) {
    exists k | 0 <= k <= |s| - |pat| :: OccursAt(s, pat, k)
  }

  /** `includes` agrees with `indexOf` finding an occurrence. */
  lemma ContainsIffIndexOf(s: string, pat: string)
    ensures Contains(s, pat) <==> IndexOf(s, pat).Some?
  {
  }

  /** A string always contains each piece it was concatenated from. */
  lemma ContainsMiddle(a: string, b: string, c: string)
    ensures Contains(a + b + c, b)
  {
    assert (a + b + c)[|a|..|a| + |b|] == b;
    assert OccursAt(a + b + c, b, |a|);
  }

  /** A message assembled as lead, caption, value and hint starts with the
      lead and contains the value. */
  lemma LeadAndValue(lead: string, caption: string, value: string, hint: string)
    ensures StartsWith(lead + caption + value + hint, lead)
    ensures Contains(lead + caption + value + hint, value)
  {
    var m := lead + caption + value + hint;
    assert m == lead + (caption + value + hint);
    StartsWithConcat(lead, caption + value + hint);
    ContainsMiddle(lead + caption, value, hint);
  }

  /** `String.prototype.replace` with a string pattern: only the first
      occurrence is replaced; without an occurrence the input is returned. */
  function ReplaceFirst(s: string, pat: string, rep: string): (r: string)
    ensures !Contains(s, pat) ==> r == s
    ensures Contains(s, pat) ==> |r| == |s| - |pat| + |rep|
  {
    ContainsIffIndexOf(s, pat);
    match IndexOf(s, pat)
    case None => s
    case Some(i) => s[..i] + rep + s[i + |pat|..]
  }

  /** When the first occurrence of `pat` is at `i`, exactly that occurrence
      is replaced. */
  lemma ReplaceFirstAt(pre: string, pat: string, post: string, rep: string)
    requires forall k :: 0 <= k < |pre| ==> !OccursAt(pre + pat + post, pat, k)
    ensures ReplaceFirst(pre + pat + post, pat, rep) == pre + rep + post
  {
    var s := pre + pat + post;
    assert s[|pre|..|pre| + |pat|] == pat;
    assert OccursAt(s, pat, |pre|);
    var i := IndexOf(s, pat).value;
    assert i == |pre|;
    assert s[..i] == pre;
    assert s[i + |pat|..] == post;
  }

  /** Replacing a single character whose first occurrence follows `pre`. */
  lemma ReplaceFirstChar(pre: string, c: char, post: string, rep: string)
    requires c !in pre
    ensures ReplaceFirst(pre + [c] + post, [c], rep) == pre + rep + post
  {
    var s := pre + [c] + post;
    forall k | 0 <= k < |pre| ensures !OccursAt(s, [c], k) {
      assert s[k] == pre[k];
      assert s[k..k + 1] == [s[k]];
    }
    ReplaceFirstAt(pre, [c], post, rep);
  }
}

=== FILE: url_builder.dfy ===
/** The provider URL builder: turns a remote's provider, base URL, owner and
    repository name into the web page URL for one of four actions. */
module UrlBuilder {
  import opened Results
  import opened Text

  /** The hosting provider of a remote. `ParseProvider` yields `Other` exactly
      for a tag other than the four known ones (the resolver reports
      "unknown"); see `BuildersDispatchOnTag`. Every builder rejects every
      `Other` value, whatever its tag. */
  datatype Provider = GitHub | GitLab | Bitbucket | Azure | Other(tag: string)

  /** What the remote resolver reports about a repository's origin.
      `owner` may itself contain '/' (nested groups). */
  datatype RemoteInfo = RemoteInfo(provider: Provider, baseUrl: string, owner: string, repo: string)

  /** The pieces of the unsupported-provider message around the base URL. */
  const UnsupportedLead: string := "Unsupported Git provider"
  const BaseUrlLabel: string := ". Current baseUrl: "
  const ConfigureHint: string := ". If you're using a private GitLab instance, "
                                 + "please configure it in Settings > git-open.providerDomains."

  /** The error thrown for a provider without templates; it keeps the base
      URL as data so that a caller can offer to configure that domain. */
  datatype UnsupportedProviderError = UnsupportedProvider(baseUrl: string) {

    /** The message text the thrown `Error` carries. */
    function Message(): (m: string)
      ensures StartsWith(m, UnsupportedLead)
      ensures Contains(m, baseUrl)
    {
      LeadAndValue(UnsupportedLead, BaseUrlLabel, baseUrl, ConfigureHint);
      UnsupportedLead + BaseUrlLabel + baseUrl + ConfigureHint
    }
  }

  /** The provider names the builders switch on. */
  predicate IsKnownTag(tag: string) {
    tag == "github" || tag == "gitlab" || tag == "bitbucket" || tag == "azure"
  }

  /** The string `GitRemoteInfo.provider` holds for a provider. */
  function ProviderTag(p: Provider): string {
    match p
    case GitHub => "github"
    case GitLab => "gitlab"
    case Bitbucket => "bitbucket"
    case Azure => "azure"
    case Other(tag) => tag
  }

  /** The `switch (provider)` dispatch: which case a provider string selects. */
  function ParseProvider(tag: string): (p: Provider)
    ensures ProviderTag(p) == tag
    ensures p.Other? <==> !IsKnownTag(tag)
  {
    if tag == "github" then GitHub
    else if tag == "gitlab" then GitLab
    else if tag == "bitbucket" then Bitbucket
    else if tag == "azure" then Azure
    else Other(tag)
  }

  /** `Other` is only used for strings that no `case` matches. */
  predicate Canonical(p: Provider) {
    p.Other? ==> !IsKnownTag(p.tag)
  }

  lemma ProviderTagRoundTrip(p: Provider)
    requires Canonical(p)
    ensures ParseProvider(ProviderTag(p)) == p
  {
  }

  /** The repository home page; it does not depend on the provider and never fails. */
  function RepoUrl(info: RemoteInfo): (r: string)
    ensures StartsWith(r, info.baseUrl + "/")
    ensures EndsWith(r, "/" + info.repo)
    ensures |r| == |info.baseUrl| + |info.owner| + |info.repo| + 2
    ensures r[|info.baseUrl| + 1..|info.baseUrl| + 1 + |info.owner|] == info.owner
  {
    var head := info.baseUrl + "/";
    var tail := "/" + info.repo;
    assert info.baseUrl + "/" + info.owner + "/" + info.repo == head + info.owner + tail;
    assert (head + info.owner + tail)[..|head|] == head;
    assert (head + info.owner + tail)[|head| + |info.owner|..] == tail;
    info.baseUrl + "/" + info.owner + "/" + info.repo
  }

  /** The last index at which `c` occurs in `s`. */
  function LastIndexOfChar(s: string, c: char): (r: Option<nat>)
    ensures r.Some? ==> r.value < |s| && s[r.value] == c
                        && forall k :: r.value < k < |s| ==> s[k] != c
    ensures r.None? ==> c !in s
  {
    if s == [] then None
    else if s[|s| - 1] == c then Some(|s| - 1)
    else LastIndexOfChar(s[..|s| - 1], c)
  }

  /** Reads a repository home page URL back into owner and repository name:
      everything after the base URL up to the last '/' is the owner. */
  function SplitRepoUrl(baseUrl: string, url: string): Option<(string, string)> {
    if !StartsWith(url, baseUrl + "/") then None
    else
      var rest := url[|baseUrl| + 1..];
      match LastIndexOfChar(rest, '/')
      case None => None
      case Some(i) => Some((rest[..i], rest[i + 1..]))
  }

  /** Owner and repository are inserted verbatim: a nested owner such as
      "group/subgroup" is neither split nor encoded, so it is read back whole. */
  lemma RepoUrlRoundTrip(info: RemoteInfo)
    requires '/' !in info.repo
    ensures SplitRepoUrl(info.baseUrl, RepoUrl(info)) == Some((info.owner, info.repo))
  {
    var url := RepoUrl(info);
    var head := info.baseUrl + "/";
    var rest := info.owner + "/" + info.repo;
    assert url == head + rest;
    StartsWithConcat(head, rest);
    assert url[|info.baseUrl| + 1..] == rest;
    LastSlashBeforeRepo(info.owner, info.repo);
    assert rest[..|info.owner|] == info.owner;
    assert rest[|info.owner| + 1..] == info.repo;
  }

  /** The last '/' of `owner/repo` is the separator when `repo` has none. */
  lemma LastSlashBeforeRepo(owner: string, repo: string)
    requires '/' !in repo
    ensures LastIndexOfChar(owner + "/" + repo, '/') == Some(|owner|)
  {
    var rest := owner + "/" + repo;
    var i := |owner|;
    assert rest[i] == '/';
  }

  /** The merge-request (pull-request) list page. */
  function MergeRequestsUrl(info: RemoteInfo): (r: Result<string, UnsupportedProviderError>)
    ensures r.Err? <==> info.provider.Other?
    ensures r.Err? ==> r.error == UnsupportedProvider(info.baseUrl)
    ensures r.Ok? ==> StartsWith(r.value, RepoUrl(info) + "/")
  {
    match info.provider
    case GitHub => Ok(info.baseUrl + "/" + info.owner + "/" + info.repo + "/pulls")
    case GitLab => Ok(info.baseUrl + "/" + info.owner + "/" + info.repo + "/-/merge_requests")
    case Bitbucket => Ok(info.baseUrl + "/" + info.owner + "/" + info.repo + "/pull-requests")
    case Azure => Ok(info.baseUrl + "/" + info.owner + "/" + info.repo + "/pullrequests")
    case Other(_) => Err(UnsupportedProvider(info.baseUrl))
  }

  /** The page that composes a new merge request from `source` into `target`. */
  function CreateMergeRequestUrl(info: RemoteInfo, source: string, target: string): (r: Result<string, UnsupportedProviderError>)
    ensures r.Err? <==> info.provider.Other?
    ensures r.Err? ==> r.error == UnsupportedProvider(info.baseUrl)
    ensures r.Ok? ==> StartsWith(r.value, RepoUrl(info) + "/")
  {
    var home := RepoUrl(info);
    match info.provider
    case GitHub =>
      var tail := "/compare/" + target + "..." + source + "?expand=1";
      StartsWithSlash(home, tail);
      Ok(home + tail)
    case GitLab =>
      var tail := "/-/merge_requests/new" + "?merge_request[source_branch]=" + source
                  + "&merge_request[target_branch]=" + target;
      StartsWithSlash(home, tail);
      Ok(home + tail)
    case Bitbucket =>
      var tail := "/pull-requests/new?source=" + source + "&dest=" + target;
      StartsWithSlash(home, tail);
      Ok(home + tail)
    case Azure =>
      var tail := "/pullrequestcreate?sourceRef=" + source + "&targetRef=" + target;
      StartsWithSlash(home, tail);
      Ok(home + tail)
    case Other(_) => Err(UnsupportedProvider(info.baseUrl))
  }

  /** The CI pipelines (GitHub Actions, Azure builds) page; it is never the
      merge-request list page. */
  function PipelinesUrl(info: RemoteInfo): (r: Result<string, UnsupportedProviderError>)
    ensures r.Err? <==> info.provider.Other?
    ensures r.Err? ==> r.error == UnsupportedProvider(info.baseUrl)
    ensures r.Ok? ==> StartsWith(r.value, RepoUrl(info) + "/")
    ensures r.Ok? ==> MergeRequestsUrl(info).Ok? && r.value != MergeRequestsUrl(info).value
  {
    match info.provider
    case GitHub => Ok(info.baseUrl + "/" + info.owner + "/" + info.repo + "/actions")
    case GitLab => Ok(info.baseUrl + "/" + info.owner + "/" + info.repo + "/-/pipelines")
    case Bitbucket => Ok(info.baseUrl + "/" + info.owner + "/" + info.repo + "/pipelines")
    case Azure => Ok(info.baseUrl + "/" + info.owner + "/" + info.repo + "/_build")
    case Other(_) => Err(UnsupportedProvider(info.baseUrl))
  }

  /** The fixed per-provider templates, each expressed as the repository home
      page followed by a provider-specific path. Only GitHub names the target
      branch before the source branch. */
  lemma ProviderTemplates(info: RemoteInfo, source: string, target: string)
    ensures info.provider == GitHub ==>
      && MergeRequestsUrl(info) == Ok(RepoUrl(info) + "/pulls")
      && PipelinesUrl(info) == Ok(RepoUrl(info) + "/actions")
      && CreateMergeRequestUrl(info, source, target)
         == Ok(RepoUrl(info) + ("/compare/" + target + "..." + source + "?expand=1"))
    ensures info.provider == GitLab ==>
      && MergeRequestsUrl(info) == Ok(RepoUrl(info) + "/-/merge_requests")
      && PipelinesUrl(info) == Ok(RepoUrl(info) + "/-/pipelines")
      && CreateMergeRequestUrl(info, source, target)
         == Ok(RepoUrl(info) + ("/-/merge_requests/new" + "?merge_request[source_branch]=" + source
               + "&merge_request[target_branch]=" + target))
    ensures info.provider == Bitbucket ==>
      && MergeRequestsUrl(info) == Ok(RepoUrl(info) + "/pull-requests")
      && PipelinesUrl(info) == Ok(RepoUrl(info) + "/pipelines")
      && CreateMergeRequestUrl(info, source, target)
         == Ok(RepoUrl(info) + ("/pull-requests/new?source=" + source + "&dest=" + target))
    ensures info.provider == Azure ==>
      && MergeRequestsUrl(info) == Ok(RepoUrl(info) + "/pullrequests")
      && PipelinesUrl(info) == Ok(RepoUrl(info) + "/_build")
      && CreateMergeRequestUrl(info, source, target)
         == Ok(RepoUrl(info) + ("/pullrequestcreate?sourceRef=" + source + "&targetRef=" + target))
  {
  }

  /** For the same repository, two different known providers never produce
      the same merge-request, pipelines or create-merge-request page. */
  lemma {:induction false} PagesIdentifyProvider(info: RemoteInfo, p: Provider, q: Provider, source: string, target: string)
    requires !p.Other? && !q.Other? && p != q
    ensures MergeRequestsUrl(info.(provider := p)) != MergeRequestsUrl(info.(provider := q))
    ensures PipelinesUrl(info.(provider := p)) != PipelinesUrl(info.(provider := q))
    ensures CreateMergeRequestUrl(info.(provider := p), source, target)
            != CreateMergeRequestUrl(info.(provider := q), source, target)
  {
    var ip, iq := info.(provider := p), info.(provider := q);
    var r := RepoUrl(info);
    assert RepoUrl(ip) == r && RepoUrl(iq) == r;
    ProviderTemplates(ip, source, target);
    ProviderTemplates(iq, source, target);
  }

  /** At the level of the provider string the builders switch on: every
      builder fails exactly when the string is none of the four cases. */
  lemma BuildersDispatchOnTag(info: RemoteInfo, tag: string, source: string, target: string)
    ensures MergeRequestsUrl(info.(provider := ParseProvider(tag))).Err? <==> !IsKnownTag(tag)
    ensures PipelinesUrl(info.(provider := ParseProvider(tag))).Err? <==> !IsKnownTag(tag)
    ensures CreateMergeRequestUrl(info.(provider := ParseProvider(tag)), source, target).Err? <==> !IsKnownTag(tag)
  {
  }
}
